=== FILE: README.md ===
# Music-player library server, modelled in Dafny

This project models the server side of a small music-streaming app. That is
the in-memory library store `MemStorage` (users, playlists, playlist tracks)
and the REST handlers `registerRoutes` puts in front of it. The record shapes
and insert schemas of `shared/schema.ts` are modelled too. Every store
operation and every handler is a pure function. A store operation maps the
store before to the store after. A handler maps (liked-song backend, server
state, session, request) to (response, server state, session).

Files and modules:

- `wrappers.dfy` (`Wrappers`): `Option`, the model of a `T | undefined` result.
- `ordered_maps.dfy` (`OrderedMaps`): JavaScript's `Map`, as its entries in
  insertion order. It states the laws the store relies on: get after set,
  get after delete, and deleting keys one by one.
- `sequences.dfy` (`Sequences`): `Array.prototype.filter` and `map`, with facts about filtering.
- `schema.dfy` (`Schema`): the record datatypes, the insert datatypes, JSON
  request bodies, and validation against the picked fields of each insert schema.
- `track_order.dfy` (`TrackOrder`): the stable sort by `position` that
  `getPlaylistTracks` applies.
- `storage.dfy` (`Storage`): the `Store` (three ordered maps plus the
  `currentIds` counters), the store invariant `Valid`, and every `MemStorage` operation.
- `storage_facts.dfy` (`StorageFacts`): the invariant is preserved, ids are
  fresh and never reused, delete cascades, listing order holds, and the
  declared foreign keys hold or can break.
- `routes.dfy` (`Routes`): requests, responses, the session guard, one
  handler per route, and the router `Handle`.
- `route_facts.dfy` (`RouteFacts`): 401 behaviour, get-or-create sign-in,
  `firebaseId` uniqueness over any request sequence, the owner overrides, and
  the checks the routes do not make.

Three behaviours of the code are worth knowing before reading the contracts:

- The liked-song routes (server/routes.ts:97-160) call `getLikedSongs`,
  `addLikedSong`, `removeLikedSong` and `isLikedSong`. Neither `IStorage`
  nor `MemStorage` (server/storage.ts:3-105) defines them. The model takes
  them as a caller-supplied backend and assumes nothing about it.
- `POST /api/playlists` validates the raw body against an insert schema that
  picks `userId` as well as `name` (shared/schema.ts:38-41). A body without
  a numeric `userId` is therefore refused with 400, although the route
  replaces that value with the session user's id (server/routes.ts:63-66).
- shared/schema.ts:21 declares that a track references a playlist. The store
  keeps this only through `deletePlaylist`'s cascade
  (server/storage.ts:73-80). `addTrackToPlaylist` (server/storage.ts:88-93)
  and its route (server/routes.ts:83-94) store tracks for any playlist id.
  The route's one caller, client/src/components/AddToPlaylistDialog.tsx:28-33,
  sends no `playlistId`, so as written that route refuses it (see Findings).

## Model

| member | source | states |
|---|---|---|
| Schema.ParsePlaylist | shared/schema.ts:38-41 | an accepted body supplies `name` as a string and `userId` as an integer, and the insert record carries exactly those values |
| Schema.ParsePlaylistTrack | shared/schema.ts:42-48 | an accepted body supplies `playlistId`, `videoId`, `title`, `thumbnail`, `position` with their column types, and the insert record carries exactly those values |
| Schema.ParseLikedSong | shared/schema.ts:49-54 | an accepted body supplies `userId`, `videoId`, `title`, `thumbnail` with their column types, and the insert record carries exactly those values |
| Schema.PlaylistParseConforms | shared/schema.ts:38-41 | the playlist body is accepted if and only if every picked field is present with its column's type |
| Schema.PlaylistTrackParseConforms | shared/schema.ts:42-48 | the track body is accepted if and only if every picked field is present with its column's type |
| Schema.LikedSongParseConforms | shared/schema.ts:49-54 | the liked-song body is accepted if and only if every picked field is present with its column's type |
| Schema.ServerAssignedNotPicked | shared/schema.ts:38-54 | `id` and `createdAt` are picked by no insert schema |
| Schema.UnpickedKeysIgnored | shared/schema.ts:38-54 | changing a key an insert schema does not pick (`id`, `createdAt`, anything else) never changes the validation result |
| OrderedMaps.Get | server/storage.ts:36 | `Map.get` gives undefined exactly when the key is absent; otherwise a value stored under that key, the only one when keys are unique |
| OrderedMaps.Set | server/storage.ts:48 | after `Map.set` the key is present; an existing key keeps its place in iteration order and a new key adds one entry; entries under other keys keep their place and value |
| OrderedMaps.Delete | server/storage.ts:74 | after `Map.delete` the key is absent and the map never grows; what every other key reads afterwards is stated by OrderedMaps.GetDelete |
| OrderedMaps.Values | server/storage.ts:40 | `Array.from(m.values())` has one value per entry, the value of the entry at the same position in iteration order |
| OrderedMaps.DeleteAll | server/storage.ts:79 | deleting a list of keys one by one never grows the map; what it leaves is stated by OrderedMaps.DeleteAllIsRemoveKeys |
| Sequences.Map | server/storage.ts:78 | `Array.prototype.map` gives one result per element, the function applied to the element at the same position |
| Sequences.Filter | server/storage.ts:53-55 | `Array.prototype.filter` keeps exactly the elements satisfying the predicate and never lengthens the array |
| OrderedMaps.GetSet | server/storage.ts:23-25 | after `set(k, v)`, `get(k)` is `v` and every other key reads as before |
| OrderedMaps.GetDelete | server/storage.ts:23-25 | after `delete(k)`, `get(k)` is undefined and every other key reads as before |
| OrderedMaps.DeleteAllIsRemoveKeys | server/storage.ts:76-79 | deleting a list of keys one by one leaves exactly the entries whose key is not in the list, in their original order |
| TrackOrder.SortByPosition | server/storage.ts:85 | the sorted tracks are a permutation of the input, in ascending `position` order |
| TrackOrder.SortStable | server/storage.ts:85 | on id-ordered input, tracks with equal positions come out in ascending id order, so the sort is stable |
| Storage.NewStore | server/storage.ts:28-33 | a new store has empty maps, every counter at 1, and satisfies the store invariant |
| Storage.GetUser | server/storage.ts:35-37 | the user stored under key `id`, or undefined exactly when no entry has that key |
| Storage.FindByFirebaseId | server/storage.ts:40-42 | `find` returns the first user with the given `firebaseId`, or undefined exactly when no user has it |
| Storage.GetUserByFirebaseId | server/storage.ts:39-43 | the first stored user in insertion order whose `firebaseId` is `f`, or undefined exactly when none has it |
| Storage.CreateUser | server/storage.ts:45-50 | the new user gets the current user counter as id; only that counter advances, by one; playlists and tracks are untouched |
| Storage.GetPlaylists | server/storage.ts:52-56 | a playlist is listed if and only if it is stored and its `userId` is the given user |
| Storage.GetPlaylist | server/storage.ts:58-60 | the playlist stored under key `id`, or undefined exactly when no entry has that key |
| Storage.CreatePlaylist | server/storage.ts:62-71 | the new playlist gets the current playlist counter as id and the clock reading as `createdAt`; only that counter advances; users and tracks are untouched |
| Storage.TrackIdsOn | server/storage.ts:76-78 | every collected id is the id of a stored track on that playlist, and every such track's id is collected |
| Storage.DeletePlaylist | server/storage.ts:73-80 | afterwards `getPlaylist(id)` is undefined, every other playlist reads as before, and users and counters are untouched, also when `id` is absent |
| Storage.GetPlaylistTracks | server/storage.ts:82-86 | the result is a permutation of the stored tracks on that playlist and is sorted by ascending position |
| Storage.AddTrackToPlaylist | server/storage.ts:88-93 | the track is stored under the current track counter as id, with the given `playlistId` and no check that the playlist exists |
| Storage.RemoveTrackFromPlaylist | server/storage.ts:95-97 | only key `id` disappears, every other track reads as before, and an absent key leaves the store identical |
| Storage.UpdateTrackPosition | server/storage.ts:99-104 | an existing track gets the new position with all other fields kept; other tracks, iteration order and other tables are unchanged; a missing id leaves the store identical |
| StorageFacts.CreateUserFresh | server/storage.ts:45-50 | in a valid store the issued user id is no stored key, the user is appended last in iteration order, and the store stays valid |
| StorageFacts.CreatePlaylistFresh | server/storage.ts:62-71 | in a valid store the issued playlist id is no stored key, the playlist is appended last, and the store stays valid |
| StorageFacts.AddTrackFresh | server/storage.ts:88-93 | in a valid store the issued track id is no stored key, the track is appended last, and the store stays valid |
| StorageFacts.RemoveTrackKeepsValid | server/storage.ts:95-97 | removing a track keeps the store invariant |
| StorageFacts.UpdateTrackPositionKeepsValid | server/storage.ts:99-104 | updating a position keeps the store invariant |
| StorageFacts.DeletePlaylistTracks | server/storage.ts:73-80 | the tracks left after `deletePlaylist(id)` are the former tracks minus those with `playlistId == id`, in their former order |
| StorageFacts.DeletePlaylistKeepsValid | server/storage.ts:73-80 | the cascade delete keeps the store invariant |
| StorageFacts.DeletePlaylistCascade | server/storage.ts:73-86 | after `deletePlaylist(id)` the playlist lists no tracks, and every other playlist lists exactly what it listed before |
| StorageFacts.GetPlaylistsInInsertionOrder | server/storage.ts:52-56 | in a valid store a user's playlists come out in ascending id order, which is insertion order |
| StorageFacts.GetPlaylistTracksOrder | server/storage.ts:82-86 | in a valid store a playlist's tracks are ordered by position, with ties in ascending id (insertion) order |
| StorageFacts.DeletePlaylistKeepsTrackReferences | server/storage.ts:73-80 | if every track references a live playlist before `deletePlaylist`, that still holds after it |
| StorageFacts.AddTrackCanOrphan | server/storage.ts:88-93 | adding a track with `playlistId` 5 to a new store succeeds, the track is listed under playlist 5, and the track-to-playlist reference no longer holds |
| StorageFacts.CreatePlaylistKeepsUserReferences | shared/schema.ts:14 | creating a playlist for a live user keeps every playlist referencing a live user |
| StorageFacts.RunKeepsValid | server/storage.ts:28-104 | any sequence of store calls from a valid store ends in a valid store, and no counter goes down |
| StorageFacts.IdsNeverReused | server/storage.ts:32-93 | after any sequence of calls, a create issues an id above every id the earlier store held, deleted or not, and free in the current store |
| Routes.OrElse | server/routes.ts:24-25 | a present non-empty string is kept; null or "" gives the fallback |
| Routes.RequireUser | server/routes.ts:35-42 | no session user gives 401 "Unauthorized"; a session uid without a user gives 401 "User not found"; a session uid with a user is authorised as the first stored user with that `firebaseId`, and only then |
| Routes.HandleAuth | server/routes.ts:17-31 | answers 200 with a user whose `firebaseId` is the posted uid, sets the session to that uid, and leaves the liked-song state alone |
| Routes.HandleGetPlaylists | server/routes.ts:34-46 | changes nothing; an authorised session gets 200 with the playlists of its user, and a 200 answer is only ever that |
| Routes.HandlePostPlaylists | server/routes.ts:48-68 | every answer other than 200 leaves the server state unchanged |
| Routes.HandleGetPlaylistById | server/routes.ts:70-76 | changes nothing; answers 404 if and only if the playlist is absent; a present playlist gets 200 with that playlist |
| Routes.HandleGetPlaylistTracks | server/routes.ts:78-81 | changes nothing; always 200 with the store's listing for that playlist id, which holds exactly its stored tracks, as a permutation, by ascending position |
| Routes.HandlePostPlaylistTracksAsWritten | server/routes.ts:83-94 | answers 400 if and only if the raw body, before the URL id is merged, lacks a picked field (including `playlistId`), and then changes nothing |
| Routes.HandlePostPlaylistTracks | server/routes.ts:83-94 | the corrected half of the finding below, which the router does not use: the URL id is merged before validation, and any 400 answer leaves the server state unchanged |
| Routes.HandleGetLikedSongs | server/routes.ts:97-109 | changes nothing; an authorised session gets 200 with the backend's list for its user's id, and a 200 answer is only ever that |
| Routes.HandlePostLikedSongs | server/routes.ts:111-132 | never touches the library store; any answer other than 200 changes nothing |
| Routes.HandleDeleteLikedSong | server/routes.ts:134-146 | never touches the library store; any answer other than 204 changes nothing |
| Routes.HandleGetLikedSong | server/routes.ts:148-160 | changes nothing; an authorised session gets 200 with `{isLiked}` as the backend reports it for its user's id and the video id, and a 200 answer is only ever that |
| Routes.Handle | server/routes.ts:13-162 | the router runs the registered handlers, the track route as written: only sign-in and the two create routes can change the store, only the liked-song POST and DELETE can change the backend's state, only sign-in changes the session, and the track route answers 400 exactly when the raw body lacks a picked field |
| RouteFacts.GuardedRoutesRejectMissingSession | server/routes.ts:35-37 | every session-guarded route without a session user answers 401 "Unauthorized" and changes neither state nor session (the same check is at lines 49-51, 98-100, 112-114, 135-137, 149-151) |
| RouteFacts.GuardedRoutesRejectUnknownUser | server/routes.ts:39-42 | every session-guarded route whose session uid has no user answers 401 "User not found" and changes nothing (the same check is at lines 53-56, 102-105, 116-119, 139-142, 153-156) |
| RouteFacts.UnguardedRoutesIgnoreSession | server/routes.ts:70-94 | through the router (track route as written), the playlist-by-id and track routes give the same answer and effect for any session, signed in or not, owner or not |
| RouteFacts.AuthKnownUser | server/routes.ts:19-27 | a uid that already has a user gets that stored user back, and the store is unchanged |
| RouteFacts.AuthNewUser | server/routes.ts:21-27 | an unknown uid appends exactly one user with the next id, display name defaulting to "Anonymous" and email to ""; playlists and tracks are untouched |
| RouteFacts.AuthIdempotent | server/routes.ts:17-31 | signing in twice with the same uid returns the same user and id, and the second call changes nothing |
| RouteFacts.AuthKeepsFirebaseIdsUnique | server/routes.ts:19-27 | the get-or-create keeps at most one user per `firebaseId` |
| RouteFacts.HandleKeepsInvariants | server/routes.ts:13-162 | every request through the router, track route as written, keeps the store invariant and the uniqueness of `firebaseId` |
| RouteFacts.ServeKeepsFirebaseIdsUnique | shared/schema.ts:7 | across any sequence of requests from any clients, each request carrying its own session, `firebaseId` stays unique and the store stays valid, although the store never checks uniqueness |
| RouteFacts.PostPlaylistsOwner | server/routes.ts:58-67 | for a signed-in user a non-conforming body gets 400 "Invalid playlist data" and changes nothing; otherwise the new playlist has the next playlist id, the body's name, the session user as owner and the clock reading as `createdAt`; it is stored under its id, appended last in a valid store, and users, tracks and the liked-song state are untouched |
| RouteFacts.PostPlaylistsIgnoresBodyUserId | server/routes.ts:63-66 | the numeric `userId` in the body has no effect on the outcome |
| RouteFacts.PostPlaylistsKeepsUserReferences | shared/schema.ts:14 | playlists created through the route keep every playlist referencing a live user |
| RouteFacts.AsWrittenRefusesDialogBody | server/routes.ts:84-87 | every body the add-to-playlist dialog sends (any video id, title and thumbnail, position 0, no `playlistId`) is refused with 400 for every URL id, by the handler and by the router, and nothing changes |
| RouteFacts.AsWrittenStoresUrlId | server/routes.ts:89-92 | a conforming body is accepted as a new track with the next track id, the URL id as `playlistId` whatever the body said, and the body's other fields; in a valid store it is appended after the existing tracks; users and playlists are untouched |
| RouteFacts.PostPlaylistTracksOutcome | server/routes.ts:83-93 | corrected route: 400 if and only if the body with the URL id merged lacks a field; every body that conforms after the merge gets 200, and in a valid store the track is appended under the URL id with the next track id |
| RouteFacts.DialogBodyStored | server/routes.ts:83-93 | corrected route: every body the add-to-playlist dialog sends is accepted for every URL id, answering the new track (next track id, URL id, the dialog's fields, position 0); users, playlists and the liked-song state are untouched, and in a valid store the track is appended after the existing ones |
| RouteFacts.DialogBodyAccepted | server/routes.ts:83-93 | corrected route on a new store: the dialog's body for playlist 5 is stored as track 1 on playlist 5, which does not exist, and is listed under it |
| RouteFacts.PostLikedSongsForcesUserId | server/routes.ts:121-131 | for a signed-in user: 400 if and only if the body, with `userId` forced to the session user's id, lacks a field; otherwise the backend receives the forced id |
| RouteFacts.DeleteLikedSongAlwaysNoContent | server/routes.ts:144-145 | once the guard passes, the answer is always 204 and the backend's remove is applied |

## Findings

| source | as written | input that shows it | evidently intended | confidence | as-written member | corrected member |
|---|---|---|---|---|---|---|
| server/routes.ts:84 | validates the raw body against the track insert schema, which picks `playlistId`; the URL id is merged only afterwards | `POST /api/playlists/5/tracks` with `{videoId:"abc", title:"T", thumbnail:"u", position:0}`, the body client/src/components/AddToPlaylistDialog.tsx:28-33 sends, gets 400 "Invalid track data" | merge the URL id before validating, as the liked-song route does with `userId`, so the track is stored on playlist 5 | medium, not executed (assumes the schema generator makes a not-null column without default required) | Routes.HandlePostPlaylistTracksAsWritten, RouteFacts.AsWrittenRefusesDialogBody | Routes.HandlePostPlaylistTracks, RouteFacts.DialogBodyStored |

The router `Routes.Handle`, and every property stated through it, uses the track route as written. The corrected route is stated and proved on its own.

## Left out

- Liked-song storage: `getLikedSongs`, `addLikedSong`, `removeLikedSong` and
  `isLikedSong` exist neither in `IStorage` nor in `MemStorage`. With the
  shipped store those calls would fail at run time. The model takes them as
  uninterpreted functions over an opaque backend state. It does not model a
  per-(user, video) uniqueness rule or a `createdAt` order. A like-then-query
  round trip is therefore not stated.
- Validation library: zod validation of the drizzle insert schemas is modelled
  as "every picked field present with its column's JSON type; other keys
  stripped". JSON numbers are integers in the model. Fractional numbers,
  coercion and the library's error messages are not modelled.
- Express plumbing is not modelled: routing, JSON (de)serialisation,
  `parseInt` of URL parameters (ids are taken as integers, so the NaN cases
  are out), `createServer`, and unhandled promise rejections.
- Clock: `new Date()` for `createdAt` is a `now` parameter.
- Concurrency: each route handler is modelled as one atomic step, from
  reading the request to answering. No `MemStorage` method awaits
  internally, so each store call is atomic in the program too. A handler
  that awaits twice can interleave with other requests between its awaits.
  `POST /api/auth` looks the uid up (server/routes.ts:19) and creates the
  user in a later step (server/routes.ts:22). Two concurrent sign-ins with a
  new uid can therefore both create a user.
  RouteFacts.ServeKeepsFirebaseIdsUnique depends on the atomic-handler
  model and does not hold for such interleavings.
- JavaScript number precision: counters, ids and positions are unbounded
  integers. Counters past 2^53, and the `a.position - b.position` comparator
  losing precision on huge positions, are not modelled.
- Routes.HandleAuth: the session stores the whole posted identity object, but
  only its `uid` is ever read, so the model's session is that uid. A missing
  `uid`, and `displayName`/`email` values that are neither strings nor null,
  are not modelled.
- The playback controller, the player adapter, the client pages and
  components, the identity-provider setup and the build configuration are
  not modelled. They are UI and foreign I/O around the library server.

=== FILE: ordered_maps.dfy ===
/**
  JavaScript's built-in `Map<number, V>`, as the in-memory store uses it.

  A JS map remembers insertion order: `values()` iterates in the order keys
  were first inserted, `set` on a present key replaces the value in place,
  `set` on an absent key appends, and `delete` drops the key. The map is
  represented by its entries in iteration order.
 */
module OrderedMaps {
  import opened Wrappers

  datatype Entry<V> = Entry(key: int, value: V)

  type OrderedMap<V> = seq<Entry<V>>

  /** No key occurs twice (every map built by `Set` and `Delete` from `Empty` has this). */
  ghost predicate UniqueKeys<V>(m: OrderedMap<V>) {
    forall i, j :: 0 <= i < j < |m| ==> m[i].key != m[j].key
  }

  /** True iff `k` is a key of `m` (`Map.prototype.has`). */
  predicate Has<V>(m: OrderedMap<V>, k: int)
  {
    exists i :: 0 <= i < |m| && m[i].key == k
  }

  /** `Map.prototype.get`: the value stored under `k`, if any. */
  function Get<V>(m: OrderedMap<V>, k: int): (r: Option<V>)
    ensures r.None? <==> !Has(m, k)
    ensures r.Some? ==> exists i :: 0 <= i < |m| && m[i] == Entry(k, r.value)
    ensures UniqueKeys(m) ==> forall i :: 0 <= i < |m| && m[i].key == k ==> r == Some(m[i].value)
  {
    if |m| == 0 then None
    else if m[0].key == k then Some(m[0].value)
    else Get(m[1..], k)
  }

  /** `Map.prototype.set`: replaces the value in place when `k` is present, appends otherwise. */
  function Set<V>(m: OrderedMap<V>, k: int, v: V): (r: OrderedMap<V>)
    ensures Has(r, k)
    ensures |r| == if Has(m, k) then |m| else |m| + 1
    ensures forall i :: 0 <= i < |m| ==> r[i].key == m[i].key
    ensures forall i :: 0 <= i < |m| && m[i].key != k ==> r[i] == m[i]
  {
    if Has(m, k) then Replace(m, k, v)
    else
      var r := m + [Entry(k, v)];
      assert r[|m|].key == k;
      r
  }

  /** Every entry with key `k` gets value `v`; positions are kept. */
  function Replace<V>(m: OrderedMap<V>, k: int, v: V): (r: OrderedMap<V>)
    ensures |r| == |m|
    ensures forall i :: 0 <= i < |m| ==> r[i].key == m[i].key
    ensures forall i :: 0 <= i < |m| ==> r[i].value == if m[i].key == k then v else m[i].value
  {
    if |m| == 0 then []
    else [if m[0].key == k then Entry(k, v) else m[0]] + Replace(m[1..], k, v)
  }

  /** `Map.prototype.delete`: drops the entry for `k`; an absent key is not an error. */
  function Delete<V>(m: OrderedMap<V>, k: int): (r: OrderedMap<V>)
    ensures !Has(r, k)
    ensures |r| <= |m|
  {
    if |m| == 0 then []
    else if m[0].key == k then Delete(m[1..], k)
    else [m[0]] + Delete(m[1..], k)
  }

  /** `Array.from(m.values())`: the values in iteration order. */
  function Values<V>(m: OrderedMap<V>): (r: seq<V>)
    ensures |r| == |m|
    ensures forall i :: 0 <= i < |m| ==> r[i] == m[i].value
  {
    if |m| == 0 then [] else [m[0].value] + Values(m[1..])
  }

  /** The keys in iteration order. */
  function Keys<V>(m: OrderedMap<V>): (r: seq<int>)
    ensures |r| == |m|
    ensures forall i :: 0 <= i < |m| ==> r[i] == m[i].key
  {
    if |m| == 0 then [] else [m[0].key] + Keys(m[1..])
  }

  /** The entries whose key is not in `ks`, in their original order. */
  function RemoveKeys<V>(m: OrderedMap<V>, ks: set<int>): (r: OrderedMap<V>)
  {
    if |m| == 0 then []
    else if m[0].key in ks then RemoveKeys(m[1..], ks)
    else [m[0]] + RemoveKeys(m[1..], ks)
  }

  /** `ks.forEach(k => m.delete(k))`. */
  function DeleteAll<V>(m: OrderedMap<V>, ks: seq<int>): (r: OrderedMap<V>)
    ensures |r| <= |m|
    decreases |ks|
  {
    if |ks| == 0 then m else DeleteAll(Delete(m, ks[0]), ks[1..])
  }

  // ---------------------------------------------------------------------
  // The JS Map laws.
  // ---------------------------------------------------------------------

  /** After `set(k, v)`, `get(k)` is `v` and every other key reads as before. */
  lemma {:induction false} GetSet<V>(m: OrderedMap<V>, k: int, v: V, j: int)
    ensures Get(Set(m, k, v), j) == if j == k then Some(v) else Get(m, j)
  {
    if Has(m, k) {
      GetReplace(m, k, v, j);
    } else {
      GetAppend(m, Entry(k, v), j);
    }
  }

  lemma {:induction false} GetReplace<V>(m: OrderedMap<V>, k: int, v: V, j: int)
    requires Has(m, k)
    ensures Get(Replace(m, k, v), j) == if j == k then Some(v) else Get(m, j)
  {
    var r := Replace(m, k, v);
    if m[0].key == k {
      assert r[0] == Entry(k, v);
      if j != k {
        assert r[1..] == Replace(m[1..], k, v);
        ReplaceKeepsAbsent(m[1..], k, v, j);
      }
    } else {
      assert r[1..] == Replace(m[1..], k, v);
      assert Has(m[1..], k) by {
        var i :| 0 <= i < |m| && m[i].key == k;
        assert m[1..][i - 1].key == k;
      }
      GetReplace(m[1..], k, v, j);
    }
  }

  lemma {:induction false} ReplaceKeepsAbsent<V>(m: OrderedMap<V>, k: int, v: V, j: int)
    requires j != k
    ensures Get(Replace(m, k, v), j) == Get(m, j)
  {
    if |m| > 0 {
      var r := Replace(m, k, v);
      assert r[1..] == Replace(m[1..], k, v);
      ReplaceKeepsAbsent(m[1..], k, v, j);
    }
  }

  lemma {:induction false} GetAppend<V>(m: OrderedMap<V>, e: Entry<V>, j: int)
    requires !Has(m, e.key)
    ensures Get(m + [e], j) == if j == e.key then Some(e.value) else Get(m, j)
  {
    if |m| == 0 {
    } else {
      assert (m + [e])[1..] == m[1..] + [e];
      assert !Has(m[1..], e.key);
      GetAppend(m[1..], e, j);
    }
  }

  /** After `delete(k)`, `get(k)` is undefined and every other key reads as before. */
  lemma {:induction false} GetDelete<V>(m: OrderedMap<V>, k: int, j: int)
    ensures Get(Delete(m, k), j) == if j == k then None else Get(m, j)
  {
    if |m| > 0 {
      GetDelete(m[1..], k, j);
      if m[0].key != k {
        assert Delete(m, k)[1..] == Delete(m[1..], k);
      }
    }
  }

  /** `delete(k)` is `RemoveKeys` with the single key `k`. */
  lemma {:induction false} DeleteIsRemoveKeys<V>(m: OrderedMap<V>, k: int)
    ensures Delete(m, k) == RemoveKeys(m, {k})
  {
    if |m| > 0 {
      DeleteIsRemoveKeys(m[1..], k);
    }
  }

  lemma {:induction false} RemoveKeysTwice<V>(m: OrderedMap<V>, a: set<int>, b: set<int>)
    ensures RemoveKeys(RemoveKeys(m, a), b) == RemoveKeys(m, a + b)
  {
    if |m| > 0 {
      RemoveKeysTwice(m[1..], a, b);
      if m[0].key !in a {
        assert RemoveKeys(m, a)[0] == m[0];
        assert RemoveKeys(m, a)[1..] == RemoveKeys(m[1..], a);
      }
    }
  }

  /** Deleting the keys one by one removes exactly those keys, keeping the order of the rest. */
  lemma {:induction false} DeleteAllIsRemoveKeys<V>(m: OrderedMap<V>, ks: seq<int>)
    ensures DeleteAll(m, ks) == RemoveKeys(m, set k | k in ks)
    decreases |ks|
  {
    if |ks| == 0 {
      assert (set k | k in ks) == {};
      RemoveNoKeys(m);
    } else {
      DeleteAllIsRemoveKeys(Delete(m, ks[0]), ks[1..]);
      DeleteIsRemoveKeys(m, ks[0]);
      RemoveKeysTwice(m, {ks[0]}, set k | k in ks[1..]);
      assert {ks[0]} + (set k | k in ks[1..]) == set k | k in ks;
    }
  }

  lemma {:induction false} RemoveNoKeys<V>(m: OrderedMap<V>)
    ensures RemoveKeys(m, {}) == m
  {
    if |m| > 0 {
      RemoveNoKeys(m[1..]);
    }
  }

  /** Entries kept by `RemoveKeys` are exactly the entries whose key is not removed. */
  lemma {:induction false} RemoveKeysMembers<V>(m: OrderedMap<V>, ks: set<int>)
    ensures forall e :: e in RemoveKeys(m, ks) ==> e in m && e.key !in ks
    ensures forall e :: e in m && e.key !in ks ==> e in RemoveKeys(m, ks)
  {
    if |m| > 0 {
      RemoveKeysMembers(m[1..], ks);
      assert forall e :: e in m <==> e == m[0] || e in m[1..];
    }
  }

  /** Deleting an absent key changes nothing. */
  lemma {:induction false} DeleteAbsent<V>(m: OrderedMap<V>, k: int)
    requires !Has(m, k)
    ensures Delete(m, k) == m
  {
    if |m| > 0 {
      assert !Has(m[1..], k);
      DeleteAbsent(m[1..], k);
      assert m == [m[0]] + m[1..];
    }
  }
}

=== FILE: route_facts.dfy ===
/**
  Properties of the request handlers: the session guard, the get-or-create
  of `/api/auth` and the uniqueness of `firebaseId` it maintains, the owner
  overrides, and the checks the routes do not make.
 */
module RouteFacts {
  import opened Wrappers
  import opened Schema
  import opened OrderedMaps
  import Storage
  import StorageFacts
  import opened Routes

  // ---------------------------------------------------------------------
  // The session guard.
  // ---------------------------------------------------------------------

  /** Without a session user every guarded route answers 401 "Unauthorized" and changes nothing. */
  lemma GuardedRoutesRejectMissingSession<L>(ops: LikedSongOps<L>, srv: Server<L>, req: Request)
    requires SessionGuarded(req)
    ensures Handle(ops, srv, None, req) == Outcome(Unauthorized, srv, None)
  {
  }

  /** A session whose uid has no user record gets 401 "User not found" on every guarded route, and nothing changes. */
  lemma GuardedRoutesRejectUnknownUser<L>(ops: LikedSongOps<L>, srv: Server<L>, uid: string, req: Request)
    requires SessionGuarded(req)
    requires forall i :: 0 <= i < |srv.store.users| ==> srv.store.users[i].value.firebaseId != uid
    ensures Handle(ops, srv, Some(uid), req) == Outcome(UserNotFound, srv, Some(uid))
  {
  }

  /**
    The playlist-by-id and track routes make no session check: whoever asks
    (signed in or not, owner or not) gets the same answer and effect.
   */
  lemma UnguardedRoutesIgnoreSession<L>(ops: LikedSongOps<L>, srv: Server<L>, s1: Session, s2: Session, req: Request)
    requires req.GetPlaylistById? || req.GetPlaylistTracks? || req.PostPlaylistTracks?
    ensures Handle(ops, srv, s1, req).response == Handle(ops, srv, s2, req).response
    ensures Handle(ops, srv, s1, req).server == Handle(ops, srv, s2, req).server
  {
  }

  // ---------------------------------------------------------------------
  // POST /api/auth.
  // ---------------------------------------------------------------------

  /** A known uid gets back its stored user, and the store is untouched. */
  lemma AuthKnownUser<L>(srv: Server<L>, auth: AuthBody, i: int)
    requires 0 <= i < |srv.store.users| && srv.store.users[i].value.firebaseId == auth.uid
    ensures var r := HandleAuth(srv, auth);
            && r.server == srv
            && r.response == Ok(UserJson(Storage.GetUserByFirebaseId(srv.store, auth.uid).value))
  {
  }

  /**
    An unknown uid creates exactly one user, appended with the next user id,
    display name defaulting to "Anonymous" and email to "".
   */
  lemma AuthNewUser<L>(srv: Server<L>, auth: AuthBody)
    requires Storage.Valid(srv.store)
    requires forall i :: 0 <= i < |srv.store.users| ==> srv.store.users[i].value.firebaseId != auth.uid
    ensures var r := HandleAuth(srv, auth);
            var u := User(srv.store.currentIds.user, auth.uid, OrElse(auth.displayName, "Anonymous"), OrElse(auth.email, ""));
            && r.response == Ok(UserJson(u))
            && Values(r.server.store.users) == Values(srv.store.users) + [u]
            && r.server.store.playlists == srv.store.playlists
            && r.server.store.tracks == srv.store.tracks
            && Storage.Valid(r.server.store)
  {
    StorageFacts.CreateUserFresh(srv.store, InsertUser(auth.uid, OrElse(auth.displayName, "Anonymous"), OrElse(auth.email, "")));
  }

  /** Signing in twice with the same uid returns the same user and creates nothing the second time. */
  lemma AuthIdempotent<L>(srv: Server<L>, a1: AuthBody, a2: AuthBody)
    requires Storage.Valid(srv.store)
    requires a1.uid == a2.uid
    ensures var r1 := HandleAuth(srv, a1);
            var r2 := HandleAuth(r1.server, a2);
            && r2.server == r1.server
            && r2.response == r1.response
            && r2.response.body.value.user.id == r1.response.body.value.user.id
  {
    var r1 := HandleAuth(srv, a1);
    if Storage.GetUserByFirebaseId(srv.store, a1.uid).None? {
      AuthNewUser(srv, a1);
      var users' := r1.server.store.users;
      var n := |srv.store.users|;
      assert users'[n].value == r1.response.body.value.user;
      assert forall j :: 0 <= j < n ==> users'[j].value == srv.store.users[j].value by {
        assert forall j :: 0 <= j < n ==> Values(users')[j] == Values(srv.store.users)[j];
      }
      AuthKnownUser(r1.server, a2, n);
    }
  }

  // ---------------------------------------------------------------------
  // Invariants every request keeps.
  // ---------------------------------------------------------------------

  /** The declared uniqueness of `users.firebase_id`. */
  ghost predicate FirebaseIdsUnique(s: Storage.Store) {
    forall i, j :: 0 <= i < j < |s.users| ==> s.users[i].value.firebaseId != s.users[j].value.firebaseId
  }

  lemma AuthKeepsFirebaseIdsUnique<L>(srv: Server<L>, auth: AuthBody)
    requires Storage.Valid(srv.store) && FirebaseIdsUnique(srv.store)
    ensures FirebaseIdsUnique(HandleAuth(srv, auth).server.store)
  {
    if Storage.GetUserByFirebaseId(srv.store, auth.uid).None? {
      AuthNewUser(srv, auth);
      var users' := HandleAuth(srv, auth).server.store.users;
      forall i, j | 0 <= i < j < |users'| ensures users'[i].value.firebaseId != users'[j].value.firebaseId {
        assert Values(users')[i] == users'[i].value && Values(users')[j] == users'[j].value;
      }
    }
  }

  /** Every request keeps the store invariant and the uniqueness of `firebaseId`. */
  lemma HandleKeepsInvariants<L>(ops: LikedSongOps<L>, srv: Server<L>, session: Session, req: Request)
    requires Storage.Valid(srv.store) && FirebaseIdsUnique(srv.store)
    ensures Storage.Valid(Handle(ops, srv, session, req).server.store)
    ensures FirebaseIdsUnique(Handle(ops, srv, session, req).server.store)
  {
    match req
    case PostAuth(auth) =>
      AuthKeepsFirebaseIdsUnique(srv, auth);
      if Storage.GetUserByFirebaseId(srv.store, auth.uid).None? {
        AuthNewUser(srv, auth);
      }
    case PostPlaylists(body, now) =>
      var g := RequireUser(srv.store, session);
      if g.Authorized? && ParsePlaylist(body).Some? {
        StorageFacts.CreatePlaylistFresh(srv.store, ParsePlaylist(body).value.(userId := g.user.id), now);
      }
    case PostPlaylistTracks(id, body) =>
      if ParsePlaylistTrack(body).Some? {
        StorageFacts.AddTrackFresh(srv.store, ParsePlaylistTrack(body).value.(playlistId := id));
      }
    case _ =>
  }

  /**
    The state after a sequence of requests from any number of clients: each
    request arrives with its own client's session, so sign-ins by one client
    interleave freely with another's requests.
   */
  function Serve<L>(ops: LikedSongOps<L>, srv: Server<L>, reqs: seq<(Session, Request)>): Server<L>
    decreases |reqs|
  {
    if |reqs| == 0 then srv
    else Serve(ops, Handle(ops, srv, reqs[0].0, reqs[0].1).server, reqs[1..])
  }

  /**
    From a fresh server, any sequence of requests leaves at most one user per
    identity-provider uid, although the store itself never checks it.
   */
  lemma {:induction false} ServeKeepsFirebaseIdsUnique<L>(ops: LikedSongOps<L>, srv: Server<L>, reqs: seq<(Session, Request)>)
    requires Storage.Valid(srv.store) && FirebaseIdsUnique(srv.store)
    ensures Storage.Valid(Serve(ops, srv, reqs).store)
    ensures FirebaseIdsUnique(Serve(ops, srv, reqs).store)
    decreases |reqs|
  {
    if |reqs| > 0 {
      HandleKeepsInvariants(ops, srv, reqs[0].0, reqs[0].1);
      ServeKeepsFirebaseIdsUnique(ops, Handle(ops, srv, reqs[0].0, reqs[0].1).server, reqs[1..]);
    }
  }

  // ---------------------------------------------------------------------
  // POST /api/playlists.
  // ---------------------------------------------------------------------

  /**
    For a signed-in user: a body missing `name` or `userId` (or with the wrong
    types) gets 400 and changes nothing; otherwise the new playlist belongs
    to the session user, whatever `userId` the body named, is stamped with
    the clock reading, and is appended to the playlists; users and tracks are
    untouched.
   */
  lemma PostPlaylistsOwner<L>(srv: Server<L>, session: Session, body: Body, now: Timestamp, u: User)
    requires RequireUser(srv.store, session) == Authorized(u)
    ensures var r := HandlePostPlaylists(srv, session, body, now);
            && (!Conforms(body, PlaylistInsertFields) ==> r == Outcome(Error(400, "Invalid playlist data"), srv, session))
            && (Conforms(body, PlaylistInsertFields) ==>
                  && r.response.status == 200
                  && r.response.body.value.playlist.id == srv.store.currentIds.playlist
                  && r.response.body.value.playlist.userId == u.id
                  && JStr(r.response.body.value.playlist.name) == body["name"]
                  && r.response.body.value.playlist.createdAt == now
                  && r.server.liked == srv.liked
                  && r.server.store.users == srv.store.users
                  && r.server.store.tracks == srv.store.tracks
                  && Storage.GetPlaylist(r.server.store, r.response.body.value.playlist.id) == Some(r.response.body.value.playlist)
                  && (Storage.Valid(srv.store) ==>
                        Values(r.server.store.playlists) == Values(srv.store.playlists) + [r.response.body.value.playlist]))
  {
    PlaylistParseConforms(body);
    if Conforms(body, PlaylistInsertFields) {
      var ins := ParsePlaylist(body).value.(userId := u.id);
      var c := Storage.CreatePlaylist(srv.store, ins, now);
      assert HandlePostPlaylists(srv, session, body, now) == Outcome(Ok(PlaylistJson(c.record)), srv.(store := c.store), session);
      GetSet(srv.store.playlists, c.record.id, c.record, c.record.id);
      if Storage.Valid(srv.store) {
        StorageFacts.CreatePlaylistFresh(srv.store, ins, now);
      }
    }
  }

  /** The `userId` a body carries never reaches the store. */
  lemma PostPlaylistsIgnoresBodyUserId<L>(srv: Server<L>, session: Session, body: Body, now: Timestamp, v: int)
    requires "userId" in body && body["userId"].JNum?
    ensures HandlePostPlaylists(srv, session, body["userId" := JNum(v)], now) == HandlePostPlaylists(srv, session, body, now)
  {
  }

  /** Playlists created through the route always point at a live user. */
  lemma PostPlaylistsKeepsUserReferences<L>(srv: Server<L>, session: Session, body: Body, now: Timestamp)
    requires Storage.Valid(srv.store) && StorageFacts.PlaylistsReferenceLiveUsers(srv.store)
    ensures StorageFacts.PlaylistsReferenceLiveUsers(HandlePostPlaylists(srv, session, body, now).server.store)
  {
    var g := RequireUser(srv.store, session);
    if g.Authorized? && ParsePlaylist(body).Some? {
      var u := g.user;
      var i :| 0 <= i < |srv.store.users| && srv.store.users[i].value == u;
      assert Has(srv.store.users, u.id);
      StorageFacts.CreatePlaylistKeepsUserReferences(srv.store, ParsePlaylist(body).value.(userId := u.id), now);
    }
  }

  // ---------------------------------------------------------------------
  // POST /api/playlists/:id/tracks.
  // ---------------------------------------------------------------------

  /** The body the add-to-playlist dialog posts: no `playlistId`, position 0. */
  function DialogBody(videoId: string, title: string, thumbnail: string): Body {
    map["videoId" := JStr(videoId), "title" := JStr(title), "thumbnail" := JStr(thumbnail), "position" := JNum(0)]
  }

  /**
    As written, the route refuses every body the dialog sends, for every
    playlist id and track, and changes nothing; so does the router.
   */
  lemma AsWrittenRefusesDialogBody<L>(ops: LikedSongOps<L>, srv: Server<L>, session: Session, id: int, videoId: string, title: string, thumbnail: string)
    ensures HandlePostPlaylistTracksAsWritten(srv, session, id, DialogBody(videoId, title, thumbnail))
            == Outcome(Error(400, "Invalid track data"), srv, session)
    ensures Handle(ops, srv, session, PostPlaylistTracks(id, DialogBody(videoId, title, thumbnail)))
            == Outcome(Error(400, "Invalid track data"), srv, session)
  {
    assert "playlistId" !in DialogBody(videoId, title, thumbnail);
  }

  /**
    As written, a body that does get through is stored as a new track under
    the URL id, not the body's, with the body's other fields and the next
    track id, appended after the existing tracks.
   */
  lemma AsWrittenStoresUrlId<L>(srv: Server<L>, session: Session, id: int, body: Body)
    requires Conforms(body, PlaylistTrackInsertFields)
    ensures var r := HandlePostPlaylistTracksAsWritten(srv, session, id, body);
            var t := r.response.body.value.track;
            && r.response.status == 200
            && t.playlistId == id
            && t.id == srv.store.currentIds.track
            && JStr(t.videoId) == body["videoId"] && JStr(t.title) == body["title"]
            && JStr(t.thumbnail) == body["thumbnail"] && JNum(t.position) == body["position"]
            && r.server.store.users == srv.store.users
            && r.server.store.playlists == srv.store.playlists
            && (Storage.Valid(srv.store) ==> Values(r.server.store.tracks) == Values(srv.store.tracks) + [t])
  {
    PlaylistTrackParseConforms(body);
    var ins := ParsePlaylistTrack(body).value.(playlistId := id);
    var c := Storage.AddTrackToPlaylist(srv.store, ins);
    assert HandlePostPlaylistTracksAsWritten(srv, session, id, body) == Outcome(Ok(TrackJson(c.record)), srv.(store := c.store), session);
    if Storage.Valid(srv.store) {
      StorageFacts.AddTrackFresh(srv.store, ins);
    }
  }

  /**
    With the URL id merged in first, the route answers 400 exactly when a
    field other than `playlistId` is missing or mistyped; otherwise it appends
    a track on playlist `id`, whether or not that playlist exists.
   */
  lemma PostPlaylistTracksOutcome<L>(srv: Server<L>, session: Session, id: int, body: Body)
    requires Storage.Valid(srv.store)
    ensures var r := HandlePostPlaylistTracks(srv, session, id, body);
            && (r.response.status == 400 <==> !Conforms(body["playlistId" := JNum(id)], PlaylistTrackInsertFields))
            && (Conforms(body["playlistId" := JNum(id)], PlaylistTrackInsertFields) ==>
                  && r.response.status == 200
                  && r.response.body.value.track.playlistId == id
                  && r.response.body.value.track.id == srv.store.currentIds.track
                  && Values(r.server.store.tracks) == Values(srv.store.tracks) + [r.response.body.value.track])
  {
    PlaylistTrackParseConforms(body["playlistId" := JNum(id)]);
    var data := ParsePlaylistTrack(body["playlistId" := JNum(id)]);
    if data.Some? {
      StorageFacts.AddTrackFresh(srv.store, data.value);
    }
  }

  lemma DialogBodyParses(id: int, videoId: string, title: string, thumbnail: string)
    ensures ParsePlaylistTrack(DialogBody(videoId, title, thumbnail)["playlistId" := JNum(id)])
            == Some(InsertPlaylistTrack(id, videoId, title, thumbnail, 0))
  {
    var b := DialogBody(videoId, title, thumbnail)["playlistId" := JNum(id)];
    assert b["playlistId"] == JNum(id) && b["videoId"] == JStr(videoId) && b["title"] == JStr(title);
    assert b["thumbnail"] == JStr(thumbnail) && b["position"] == JNum(0);
  }

  /**
    With the URL id merged first, every body the dialog sends is accepted for
    every playlist id, existing or not: the answer is the new track, carrying
    the next track id, the URL id, the dialog's fields and position 0, and in
    a valid store it is appended after the existing tracks.
   */
  lemma DialogBodyStored<L>(srv: Server<L>, session: Session, id: int, videoId: string, title: string, thumbnail: string)
    ensures var r := HandlePostPlaylistTracks(srv, session, id, DialogBody(videoId, title, thumbnail));
            var t := PlaylistTrack(srv.store.currentIds.track, id, videoId, title, thumbnail, 0);
            && r.response == Ok(TrackJson(t))
            && r.session == session && r.server.liked == srv.liked
            && r.server.store.users == srv.store.users
            && r.server.store.playlists == srv.store.playlists
            && (Storage.Valid(srv.store) ==> Values(r.server.store.tracks) == Values(srv.store.tracks) + [t])
  {
    var ins := InsertPlaylistTrack(id, videoId, title, thumbnail, 0);
    DialogBodyParses(id, videoId, title, thumbnail);
    var c := Storage.AddTrackToPlaylist(srv.store, ins);
    assert HandlePostPlaylistTracks(srv, session, id, DialogBody(videoId, title, thumbnail))
           == Outcome(Ok(TrackJson(c.record)), srv.(store := c.store), session);
    if Storage.Valid(srv.store) {
      StorageFacts.AddTrackFresh(srv.store, ins);
    }
  }

  /**
    The dialog's body is accepted by the route with the URL id merged first,
    even for a playlist that does not exist: the track is stored with that
    `playlistId` and listed under it.
   */
  lemma DialogBodyAccepted<L>(srv: Server<L>, session: Session)
    requires srv.store == Storage.NewStore()
    ensures var r := HandlePostPlaylistTracks(srv, session, 5, DialogBody("abc", "T", "u"));
            && r.response == Ok(TrackJson(PlaylistTrack(1, 5, "abc", "T", "u", 0)))
            && Storage.GetPlaylist(r.server.store, 5).None?
            && Storage.GetPlaylistTracks(r.server.store, 5) == [PlaylistTrack(1, 5, "abc", "T", "u", 0)]
  {
    var ins := InsertPlaylistTrack(5, "abc", "T", "u", 0);
    DialogBodyParses(5, "abc", "T", "u");
    var c := Storage.AddTrackToPlaylist(srv.store, ins);
    assert HandlePostPlaylistTracks(srv, session, 5, DialogBody("abc", "T", "u")) == Outcome(Ok(TrackJson(c.record)), srv.(store := c.store), session);
    StorageFacts.AddTrackCanOrphan();
  }

  // ---------------------------------------------------------------------
  // Liked songs.
  // ---------------------------------------------------------------------

  /**
    For a signed-in user, the song handed to the backend carries the session
    user's id whatever the body said; 400 exactly when `videoId`, `title` or
    `thumbnail` is missing or mistyped.
   */
  lemma PostLikedSongsForcesUserId<L>(ops: LikedSongOps<L>, srv: Server<L>, session: Session, body: Body, u: User)
    requires RequireUser(srv.store, session) == Authorized(u)
    ensures var r := HandlePostLikedSongs(ops, srv, session, body);
            var forced := body["userId" := JNum(u.id)];
            && (r.response.status == 400 <==> !Conforms(forced, LikedSongInsertFields))
            && (Conforms(forced, LikedSongInsertFields) ==>
                  var data := InsertLikedSong(u.id, forced["videoId"].str, forced["title"].str, forced["thumbnail"].str);
                  && r.response == Ok(LikedSongJson(ops.addLikedSong(srv.liked, data).0))
                  && r.server == srv.(liked := ops.addLikedSong(srv.liked, data).1))
  {
    LikedSongParseConforms(body["userId" := JNum(u.id)]);
  }

  /** Once the guard passes, unliking always answers 204, whether or not the song was liked. */
  lemma DeleteLikedSongAlwaysNoContent<L>(ops: LikedSongOps<L>, srv: Server<L>, session: Session, videoId: string, u: User)
    requires RequireUser(srv.store, session) == Authorized(u)
    ensures HandleDeleteLikedSong(ops, srv, session, videoId)
            == Outcome(NoContent, srv.(liked := ops.removeLikedSong(srv.liked, u.id, videoId)), session)
  {
  }
}

=== FILE: routes.dfy ===
/**
  The REST handlers `registerRoutes` installs, as pure functions from
  (liked-song backend, server state, session, request) to (response, new
  state, new session).

  The liked-song routes call `getLikedSongs`, `addLikedSong`,
  `removeLikedSong` and `isLikedSong`, which the in-memory store does not
  define; here they are a caller-supplied backend (`LikedSongOps`) over an
  opaque state `L`, about which nothing is assumed.
 */
module Routes {
  import opened Wrappers
  import opened Schema
  import Storage
  import OrderedMaps

  /** `req.session.user`: the identity-provider uid of the signed-in user, if any. */
  type Session = Option<string>

  /** The body `POST /api/auth` receives; a JSON `null` field is `None`. */
  datatype AuthBody = AuthBody(uid: string, email: Option<string>, displayName: Option<string>)

  /** A JSON response body. */
  datatype Payload =
    | UserJson(user: User)
    | PlaylistJson(playlist: Playlist)
    | PlaylistsJson(playlists: seq<Playlist>)
    | TrackJson(track: PlaylistTrack)
    | TracksJson(tracks: seq<PlaylistTrack>)
    | LikedSongJson(song: LikedSong)
    | LikedSongsJson(songs: seq<LikedSong>)
    | IsLikedJson(isLiked: bool)
    | MessageJson(message: string)

  /** An HTTP response: a status code and, except for 204, a JSON body. */
  datatype Response = Response(status: int, body: Option<Payload>)

  function Ok(p: Payload): Response { Response(200, Some(p)) }
  function Error(status: int, message: string): Response { Response(status, Some(MessageJson(message))) }
  const NoContent: Response := Response(204, None)

  const Unauthorized: Response := Error(401, "Unauthorized")
  const UserNotFound: Response := Error(401, "User not found")

  /** The liked-song storage calls the handlers make, over a backend state `L`. */
  datatype LikedSongOps<!L> = LikedSongOps(
    getLikedSongs: (L, int) -> seq<LikedSong>,
    addLikedSong: (L, InsertLikedSong) -> (LikedSong, L),
    removeLikedSong: (L, int, string) -> L,
    isLikedSong: (L, int, string) -> bool)

  /** Everything the server holds: the in-memory store and the liked-song backend's state. */
  datatype Server<L> = Server(store: Storage.Store, liked: L)

  /** What a handler produces: the response, the server state after it, and the session after it. */
  datatype Outcome<L> = Outcome(response: Response, server: Server<L>, session: Session)

  datatype Request =
    | PostAuth(auth: AuthBody)
    | GetPlaylists
    | PostPlaylists(body: Body, now: Timestamp)
    | GetPlaylistById(id: int)
    | GetPlaylistTracks(id: int)
    | PostPlaylistTracks(id: int, body: Body)
    | GetLikedSongs
    | PostLikedSongs(body: Body)
    | DeleteLikedSong(videoId: string)
    | GetLikedSong(videoId: string)

  /** The routes that begin by checking the session. */
  predicate SessionGuarded(req: Request) {
    req.GetPlaylists? || req.PostPlaylists? || req.GetLikedSongs? || req.PostLikedSongs?
    || req.DeleteLikedSong? || req.GetLikedSong?
  }

  /** JavaScript's `value || fallback` on a string that may be null: null and "" fall back. */
  function OrElse(value: Option<string>, fallback: string): (r: string)
    ensures value.Some? && value.value != "" ==> r == value.value
    ensures value.None? || value.value == "" ==> r == fallback
  {
    if value.Some? && value.value != "" then value.value else fallback
  }

  // ---------------------------------------------------------------------
  // The session guard shared by the guarded routes.
  // ---------------------------------------------------------------------

  datatype Guard = Authorized(user: User) | Rejected(response: Response)

  /**
    No session user: 401 "Unauthorized". A session whose uid has no user
    record: 401 "User not found". Otherwise the session's user.
   */
  function RequireUser(s: Storage.Store, session: Session): (r: Guard)
    ensures session.None? ==> r == Rejected(Unauthorized)
    ensures session.Some? && Storage.GetUserByFirebaseId(s, session.value).None? ==> r == Rejected(UserNotFound)
    ensures r.Authorized? ==> session.Some? && r.user.firebaseId == session.value
                              && Storage.GetUserByFirebaseId(s, session.value) == Some(r.user)
    ensures session.Some? && Storage.GetUserByFirebaseId(s, session.value).Some? ==>
              r == Authorized(Storage.GetUserByFirebaseId(s, session.value).value)
  {
    if session.None? then Rejected(Unauthorized)
    else
      match Storage.GetUserByFirebaseId(s, session.value)
      case None => Rejected(UserNotFound)
      case Some(u) => Authorized(u)
  }

  // ---------------------------------------------------------------------
  // Handlers.
  // ---------------------------------------------------------------------

  /**
    `POST /api/auth`: returns the user with the body's uid, creating it first
    (display name defaulting to "Anonymous", email to "") when there is none;
    the session becomes the posted identity.
   */
  function HandleAuth<L>(srv: Server<L>, auth: AuthBody): (r: Outcome<L>)
    ensures r.session == Some(auth.uid) && r.server.liked == srv.liked
    ensures r.response.status == 200 && r.response.body.Some? && r.response.body.value.UserJson?
    ensures r.response.body.value.user.firebaseId == auth.uid
  {
    match Storage.GetUserByFirebaseId(srv.store, auth.uid)
    case Some(u) => Outcome(Ok(UserJson(u)), srv, Some(auth.uid))
    case None =>
      var c := Storage.CreateUser(srv.store, InsertUser(auth.uid, OrElse(auth.displayName, "Anonymous"), OrElse(auth.email, "")));
      Outcome(Ok(UserJson(c.record)), srv.(store := c.store), Some(auth.uid))
  }

  /** `GET /api/playlists`: the session user's playlists. */
  function HandleGetPlaylists<L>(srv: Server<L>, session: Session): (r: Outcome<L>)
    ensures r.server == srv && r.session == session
    ensures r.response.status == 200 ==>
              session.Some? && Storage.GetUserByFirebaseId(srv.store, session.value).Some?
                          && r.response == Ok(PlaylistsJson(Storage.GetPlaylists(srv.store, Storage.GetUserByFirebaseId(srv.store, session.value).value.id)))
    ensures RequireUser(srv.store, session).Authorized? ==>
              r.response == Ok(PlaylistsJson(Storage.GetPlaylists(srv.store, RequireUser(srv.store, session).user.id)))
  {
    match RequireUser(srv.store, session)
    case Rejected(resp) => Outcome(resp, srv, session)
    case Authorized(u) => Outcome(Ok(PlaylistsJson(Storage.GetPlaylists(srv.store, u.id))), srv, session)
  }

  /**
    `POST /api/playlists`: validates the body against the playlist insert
    schema (400 "Invalid playlist data" on failure), then creates the
    playlist with `userId` overridden by the session user's id.
   */
  function HandlePostPlaylists<L>(srv: Server<L>, session: Session, body: Body, now: Timestamp): (r: Outcome<L>)
    ensures r.session == session && r.server.liked == srv.liked
    ensures r.response.status != 200 ==> r.server == srv
  {
    match RequireUser(srv.store, session)
    case Rejected(resp) => Outcome(resp, srv, session)
    case Authorized(u) =>
      match ParsePlaylist(body)
      case None => Outcome(Error(400, "Invalid playlist data"), srv, session)
      case Some(data) =>
        var c := Storage.CreatePlaylist(srv.store, data.(userId := u.id), now);
        Outcome(Ok(PlaylistJson(c.record)), srv.(store := c.store), session)
  }

  /** `GET /api/playlists/:id`: the playlist, or 404 "Playlist not found"; no session or owner check. */
  function HandleGetPlaylistById<L>(srv: Server<L>, session: Session, id: int): (r: Outcome<L>)
    ensures r.server == srv && r.session == session
    ensures r.response.status == 404 <==> Storage.GetPlaylist(srv.store, id).None?
    ensures r.response.status == 200 ==> r.response == Ok(PlaylistJson(Storage.GetPlaylist(srv.store, id).value))
    ensures Storage.GetPlaylist(srv.store, id).Some? ==> r.response == Ok(PlaylistJson(Storage.GetPlaylist(srv.store, id).value))
  {
    match Storage.GetPlaylist(srv.store, id)
    case None => Outcome(Error(404, "Playlist not found"), srv, session)
    case Some(p) => Outcome(Ok(PlaylistJson(p)), srv, session)
  }

  /** `GET /api/playlists/:id/tracks`: the playlist's tracks by position; no session or existence check. */
  function HandleGetPlaylistTracks<L>(srv: Server<L>, session: Session, id: int): (r: Outcome<L>)
    ensures r.server == srv && r.session == session
    ensures r.response.status == 200 && r.response.body.Some? && r.response.body.value.TracksJson?
    ensures forall t :: t in r.response.body.value.tracks <==> t in OrderedMaps.Values(srv.store.tracks) && t.playlistId == id
    ensures r.response == Ok(TracksJson(Storage.GetPlaylistTracks(srv.store, id)))
  {
    Outcome(Ok(TracksJson(Storage.GetPlaylistTracks(srv.store, id))), srv, session)
  }

  /**
    `POST /api/playlists/:id/tracks` as written: the raw body is validated
    against the track insert schema, which picks `playlistId`, and only then
    is the URL id merged in. A body without its own `playlistId` is refused.
   */
  function HandlePostPlaylistTracksAsWritten<L>(srv: Server<L>, session: Session, id: int, body: Body): (r: Outcome<L>)
    ensures r.session == session && r.server.liked == srv.liked
    ensures r.response.status == 400 <==> !Conforms(body, PlaylistTrackInsertFields)
    ensures r.response.status == 400 ==> r.server == srv
  {
    PlaylistTrackParseConforms(body);
    match ParsePlaylistTrack(body)
    case None => Outcome(Error(400, "Invalid track data"), srv, session)
    case Some(data) =>
      var c := Storage.AddTrackToPlaylist(srv.store, data.(playlistId := id));
      Outcome(Ok(TrackJson(c.record)), srv.(store := c.store), session)
  }

  /**
    `POST /api/playlists/:id/tracks` with the URL id merged in before
    validation, as the liked-song route does with the user id: the body need
    not carry `playlistId`, and any it carries is overridden.
   */
  function HandlePostPlaylistTracks<L>(srv: Server<L>, session: Session, id: int, body: Body): (r: Outcome<L>)
    ensures r.session == session && r.server.liked == srv.liked
    ensures r.response.status == 400 ==> r.server == srv
  {
    match ParsePlaylistTrack(body["playlistId" := JNum(id)])
    case None => Outcome(Error(400, "Invalid track data"), srv, session)
    case Some(data) =>
      var c := Storage.AddTrackToPlaylist(srv.store, data);
      Outcome(Ok(TrackJson(c.record)), srv.(store := c.store), session)
  }

  /** `GET /api/liked-songs`: the backend's liked songs of the session user. */
  function HandleGetLikedSongs<L>(ops: LikedSongOps<L>, srv: Server<L>, session: Session): (r: Outcome<L>)
    ensures r.server == srv && r.session == session
    ensures r.response.status == 200 ==>
              session.Some? && Storage.GetUserByFirebaseId(srv.store, session.value).Some?
                          && r.response == Ok(LikedSongsJson(ops.getLikedSongs(srv.liked, Storage.GetUserByFirebaseId(srv.store, session.value).value.id)))
    ensures RequireUser(srv.store, session).Authorized? ==>
              r.response == Ok(LikedSongsJson(ops.getLikedSongs(srv.liked, RequireUser(srv.store, session).user.id)))
  {
    match RequireUser(srv.store, session)
    case Rejected(resp) => Outcome(resp, srv, session)
    case Authorized(u) => Outcome(Ok(LikedSongsJson(ops.getLikedSongs(srv.liked, u.id))), srv, session)
  }

  /**
    `POST /api/liked-songs`: the body with `userId` forced to the session
    user's id is validated (400 "Invalid song data" on failure) and handed to
    the backend.
   */
  function HandlePostLikedSongs<L>(ops: LikedSongOps<L>, srv: Server<L>, session: Session, body: Body): (r: Outcome<L>)
    ensures r.session == session && r.server.store == srv.store
    ensures r.response.status != 200 ==> r.server == srv
  {
    match RequireUser(srv.store, session)
    case Rejected(resp) => Outcome(resp, srv, session)
    case Authorized(u) =>
      match ParseLikedSong(body["userId" := JNum(u.id)])
      case None => Outcome(Error(400, "Invalid song data"), srv, session)
      case Some(data) =>
        var (song, liked') := ops.addLikedSong(srv.liked, data);
        Outcome(Ok(LikedSongJson(song)), srv.(liked := liked'), session)
  }

  /** `DELETE /api/liked-songs/:videoId`: asks the backend to remove the like and answers 204. */
  function HandleDeleteLikedSong<L>(ops: LikedSongOps<L>, srv: Server<L>, session: Session, videoId: string): (r: Outcome<L>)
    ensures r.session == session && r.server.store == srv.store
    ensures r.response.status != 204 ==> r.server == srv
  {
    match RequireUser(srv.store, session)
    case Rejected(resp) => Outcome(resp, srv, session)
    case Authorized(u) =>
      Outcome(NoContent, srv.(liked := ops.removeLikedSong(srv.liked, u.id, videoId)), session)
  }

  /** `GET /api/liked-songs/:videoId`: `{isLiked}` as the backend answers it. */
  function HandleGetLikedSong<L>(ops: LikedSongOps<L>, srv: Server<L>, session: Session, videoId: string): (r: Outcome<L>)
    ensures r.server == srv && r.session == session
    ensures r.response.status == 200 ==>
              session.Some? && Storage.GetUserByFirebaseId(srv.store, session.value).Some?
                          && r.response == Ok(IsLikedJson(ops.isLikedSong(srv.liked, Storage.GetUserByFirebaseId(srv.store, session.value).value.id, videoId)))
    ensures RequireUser(srv.store, session).Authorized? ==>
              r.response == Ok(IsLikedJson(ops.isLikedSong(srv.liked, RequireUser(srv.store, session).user.id, videoId)))
  {
    match RequireUser(srv.store, session)
    case Rejected(resp) => Outcome(resp, srv, session)
    case Authorized(u) => Outcome(Ok(IsLikedJson(ops.isLikedSong(srv.liked, u.id, videoId))), srv, session)
  }

  /**
    The router: each request goes to the handler the program registers for
    it, the track route included as written. Only the sign-in and the two
    create routes write the library store, only the two liked-song writes
    reach the backend's state, and only sign-in sets the session.
   */
  function Handle<L>(ops: LikedSongOps<L>, srv: Server<L>, session: Session, req: Request): (r: Outcome<L>)
    ensures r.server.store != srv.store ==> req.PostAuth? || req.PostPlaylists? || req.PostPlaylistTracks?
    ensures r.server.liked != srv.liked ==> req.PostLikedSongs? || req.DeleteLikedSong?
    ensures r.session != session ==> req.PostAuth?
    ensures req.PostPlaylistTracks? ==>
              (r.response.status == 400 <==> !Conforms(req.body, PlaylistTrackInsertFields))
  {
    match req
    case PostAuth(auth) => HandleAuth(srv, auth)
    case GetPlaylists => HandleGetPlaylists(srv, session)
    case PostPlaylists(body, now) => HandlePostPlaylists(srv, session, body, now)
    case GetPlaylistById(id) => HandleGetPlaylistById(srv, session, id)
    case GetPlaylistTracks(id) => HandleGetPlaylistTracks(srv, session, id)
    case PostPlaylistTracks(id, body) => HandlePostPlaylistTracksAsWritten(srv, session, id, body)
    case GetLikedSongs => HandleGetLikedSongs(ops, srv, session)
    case PostLikedSongs(body) => HandlePostLikedSongs(ops, srv, session, body)
    case DeleteLikedSong(videoId) => HandleDeleteLikedSong(ops, srv, session, videoId)
    case GetLikedSong(videoId) => HandleGetLikedSong(ops, srv, session, videoId)
  }
}

=== FILE: schema.dfy ===
/**
  The record shapes of the library database and the insert bodies the
  request handlers accept.

  Every column is declared not-null, so no field is optional. `id` is a
  serial primary key and `createdAt` defaults to the current time: both are
  assigned by the server and appear in no insert body.
 */
module Schema {
  import opened Wrappers

  /** A moment in time, as the server's clock reports it. */
  type Timestamp = int

  /** `firebaseId` is declared unique: at most one user per identity-provider uid. */
  datatype User = User(id: int, firebaseId: string, displayName: string, email: string)

  /** `userId` references `users.id`. */
  datatype Playlist = Playlist(id: int, userId: int, name: string, createdAt: Timestamp)

  /** `playlistId` references `playlists.id`; `position` orders the tracks of one playlist. */
  datatype PlaylistTrack = PlaylistTrack(
    id: int, playlistId: int, videoId: string, title: string, thumbnail: string, position: int)

  /** `userId` references `users.id`. */
  datatype LikedSong = LikedSong(
    id: int, userId: int, videoId: string, title: string, thumbnail: string, createdAt: Timestamp)

  datatype InsertUser = InsertUser(firebaseId: string, displayName: string, email: string)

  datatype InsertPlaylist = InsertPlaylist(name: string, userId: int)

  datatype InsertPlaylistTrack = InsertPlaylistTrack(
    playlistId: int, videoId: string, title: string, thumbnail: string, position: int)

  datatype InsertLikedSong = InsertLikedSong(userId: int, videoId: string, title: string, thumbnail: string)

  // ---------------------------------------------------------------------
  // Request bodies and their validation.
  // ---------------------------------------------------------------------

  /** A JSON value as far as validation distinguishes it: a string, an integer, or anything else. */
  datatype Json = JStr(str: string) | JNum(num: int) | JOther

  /** A parsed JSON object. */
  type Body = map<string, Json>

  /** The column types an insert body can carry. */
  datatype Column = Text | Integer

  /** A picked field of an insert schema: its name and the type of its column. */
  datatype Field = Field(name: string, column: Column)

  const PlaylistInsertFields: seq<Field> :=
    [Field("name", Text), Field("userId", Integer)]

  const PlaylistTrackInsertFields: seq<Field> :=
    [Field("playlistId", Integer), Field("videoId", Text), Field("title", Text),
     Field("thumbnail", Text), Field("position", Integer)]

  const LikedSongInsertFields: seq<Field> :=
    [Field("userId", Integer), Field("videoId", Text), Field("title", Text), Field("thumbnail", Text)]

  predicate HasColumnType(v: Json, c: Column) {
    match c
    case Text => v.JStr?
    case Integer => v.JNum?
  }

  /** The body carries every picked field, each with a value of its column's type. */
  predicate Conforms(body: Body, fields: seq<Field>) {
    forall i :: 0 <= i < |fields| ==> fields[i].name in body && HasColumnType(body[fields[i].name], fields[i].column)
  }

  /** True iff no picked field is called `name`. */
  predicate NotPicked(name: string, fields: seq<Field>) {
    forall i :: 0 <= i < |fields| ==> fields[i].name != name
  }

  predicate IsText(body: Body, name: string) {
    name in body && body[name].JStr?
  }

  predicate IsInteger(body: Body, name: string) {
    name in body && body[name].JNum?
  }

  /** Validation of a body against the playlist insert schema; other keys are stripped. */
  function ParsePlaylist(body: Body): (r: Option<InsertPlaylist>)
    ensures r.Some? ==> "name" in body && body["name"] == JStr(r.value.name)
    ensures r.Some? ==> "userId" in body && body["userId"] == JNum(r.value.userId)
  {
    if IsText(body, "name") && IsInteger(body, "userId") then
      Some(InsertPlaylist(body["name"].str, body["userId"].num))
    else
      None
  }

  /** Validation of a body against the playlist-track insert schema; other keys are stripped. */
  function ParsePlaylistTrack(body: Body): (r: Option<InsertPlaylistTrack>)
    ensures r.Some? ==> "playlistId" in body && body["playlistId"] == JNum(r.value.playlistId)
    ensures r.Some? ==> "videoId" in body && body["videoId"] == JStr(r.value.videoId)
    ensures r.Some? ==> "title" in body && body["title"] == JStr(r.value.title)
    ensures r.Some? ==> "thumbnail" in body && body["thumbnail"] == JStr(r.value.thumbnail)
    ensures r.Some? ==> "position" in body && body["position"] == JNum(r.value.position)
  {
    if IsInteger(body, "playlistId") && IsText(body, "videoId") && IsText(body, "title")
       && IsText(body, "thumbnail") && IsInteger(body, "position") then
      Some(InsertPlaylistTrack(body["playlistId"].num, body["videoId"].str, body["title"].str,
                               body["thumbnail"].str, body["position"].num))
    else
      None
  }

  /** Validation of a body against the liked-song insert schema; other keys are stripped. */
  function ParseLikedSong(body: Body): (r: Option<InsertLikedSong>)
    ensures r.Some? ==> "userId" in body && body["userId"] == JNum(r.value.userId)
    ensures r.Some? ==> "videoId" in body && body["videoId"] == JStr(r.value.videoId)
    ensures r.Some? ==> "title" in body && body["title"] == JStr(r.value.title)
    ensures r.Some? ==> "thumbnail" in body && body["thumbnail"] == JStr(r.value.thumbnail)
  {
    if IsInteger(body, "userId") && IsText(body, "videoId") && IsText(body, "title")
       && IsText(body, "thumbnail") then
      Some(InsertLikedSong(body["userId"].num, body["videoId"].str, body["title"].str, body["thumbnail"].str))
    else
      None
  }

  /** The playlist parser accepts a body exactly when it conforms to the picked fields. */
  lemma PlaylistParseConforms(body: Body)
    ensures ParsePlaylist(body).Some? <==> Conforms(body, PlaylistInsertFields)
  {
    var p := PlaylistInsertFields;
    assert p[0] == Field("name", Text) && p[1] == Field("userId", Integer);
  }

  /** The playlist-track parser accepts a body exactly when it conforms to the picked fields. */
  lemma PlaylistTrackParseConforms(body: Body)
    ensures ParsePlaylistTrack(body).Some? <==> Conforms(body, PlaylistTrackInsertFields)
  {
    var t := PlaylistTrackInsertFields;
    assert t[0] == Field("playlistId", Integer) && t[1] == Field("videoId", Text) && t[2] == Field("title", Text);
    assert t[3] == Field("thumbnail", Text) && t[4] == Field("position", Integer);
  }

  /** The liked-song parser accepts a body exactly when it conforms to the picked fields. */
  lemma LikedSongParseConforms(body: Body)
    ensures ParseLikedSong(body).Some? <==> Conforms(body, LikedSongInsertFields)
  {
    var l := LikedSongInsertFields;
    assert l[0] == Field("userId", Integer) && l[1] == Field("videoId", Text) && l[2] == Field("title", Text);
    assert l[3] == Field("thumbnail", Text);
  }

  /** The server-assigned columns are not picked by any insert schema. */
  lemma ServerAssignedNotPicked()
    ensures NotPicked("id", PlaylistInsertFields) && NotPicked("createdAt", PlaylistInsertFields)
    ensures NotPicked("id", PlaylistTrackInsertFields)
    ensures NotPicked("id", LikedSongInsertFields) && NotPicked("createdAt", LikedSongInsertFields)
  {
  }

  /** A key that is not picked (`id`, `createdAt`, anything else) has no influence on validation. */
  lemma UnpickedKeysIgnored(body: Body, k: string, v: Json)
    ensures NotPicked(k, PlaylistInsertFields) ==> ParsePlaylist(body[k := v]) == ParsePlaylist(body)
    ensures NotPicked(k, PlaylistTrackInsertFields) ==> ParsePlaylistTrack(body[k := v]) == ParsePlaylistTrack(body)
    ensures NotPicked(k, LikedSongInsertFields) ==> ParseLikedSong(body[k := v]) == ParseLikedSong(body)
  {
    var p, t, l := PlaylistInsertFields, PlaylistTrackInsertFields, LikedSongInsertFields;
    if NotPicked(k, p) {
      assert p[0].name == "name" && p[1].name == "userId";
      assert k != "name" && k != "userId";
    }
    if NotPicked(k, t) {
      assert t[0].name == "playlistId" && t[1].name == "videoId" && t[2].name == "title";
      assert t[3].name == "thumbnail" && t[4].name == "position";
      assert k != "playlistId" && k != "videoId" && k != "title" && k != "thumbnail" && k != "position";
    }
    if NotPicked(k, l) {
      assert l[0].name == "userId" && l[1].name == "videoId" && l[2].name == "title" && l[3].name == "thumbnail";
      assert k != "userId" && k != "videoId" && k != "title" && k != "thumbnail";
    }
  }
}

=== FILE: sequences.dfy ===
/** `Array.prototype.filter` and the facts about it the store needs. */
module Sequences {

  /** The elements of `s` that satisfy `keep`, in their original order. */
  function Filter<T>(s: seq<T>, keep: T -> bool): (r: seq<T>)
    ensures |r| <= |s|
    ensures forall i :: 0 <= i < |r| ==> r[i] in s && keep(r[i])
    ensures forall i :: 0 <= i < |s| && keep(s[i]) ==> s[i] in r
  {
    if |s| == 0 then []
    else if keep(s[0]) then [s[0]] + Filter(s[1..], keep)
    else Filter(s[1..], keep)
  }

  /** `Array.prototype.map`. */
  function Map<T, U>(s: seq<T>, f: T -> U): (r: seq<U>)
    ensures |r| == |s|
    ensures forall i :: 0 <= i < |s| ==> r[i] == f(s[i])
  {
    if |s| == 0 then [] else [f(s[0])] + Map(s[1..], f)
  }

  /** Filtering keeps a strictly ascending order by `key`. */
  lemma {:induction false} FilterKeepsAscending<T>(s: seq<T>, keep: T -> bool, key: T -> int)
    requires forall i, j :: 0 <= i < j < |s| ==> key(s[i]) < key(s[j])
    ensures forall i, j :: 0 <= i < j < |Filter(s, keep)| ==> key(Filter(s, keep)[i]) < key(Filter(s, keep)[j])
  {
    if |s| > 0 {
      FilterKeepsAscending(s[1..], keep, key);
      var t := Filter(s[1..], keep);
      if keep(s[0]) {
        forall k | 0 <= k < |t| ensures key(s[0]) < key(t[k]) {
          var i :| 0 <= i < |s[1..]| && s[1..][i] == t[k];
          assert s[i + 1] == t[k];
        }
        var r := Filter(s, keep);
        assert r == [s[0]] + t;
      }
    }
  }


  /** A second filter that implies the first makes the first one redundant. */
  lemma {:induction false} FilterAbsorbs<T>(s: seq<T>, f: T -> bool, g: T -> bool)
    requires forall i :: 0 <= i < |s| && g(s[i]) ==> f(s[i])
    ensures Filter(Filter(s, f), g) == Filter(s, g)
  {
    if |s| > 0 {
      FilterAbsorbs(s[1..], f, g);
      if f(s[0]) {
        assert Filter(s, f) == [s[0]] + Filter(s[1..], f);
      }
    }
  }

  /** A second filter that contradicts the first selects nothing. */
  lemma {:induction false} FilterExcludes<T>(s: seq<T>, f: T -> bool, g: T -> bool)
    requires forall i :: 0 <= i < |s| && f(s[i]) ==> !g(s[i])
    ensures Filter(Filter(s, f), g) == []
  {
    if |s| > 0 {
      FilterExcludes(s[1..], f, g);
      if f(s[0]) {
        assert Filter(s, f) == [s[0]] + Filter(s[1..], f);
      }
    }
  }
}

=== FILE: storage.dfy ===
/**
  `MemStorage`: the in-memory library store behind the request handlers.

  Three JS maps hold users, playlists and playlist tracks keyed by id, and
  `currentIds` holds, per entity kind, the id the next created record gets
  (all start at 1). Every operation is sequential and atomic, so each is a
  pure function from the store before to the store after.
 */
module Storage {
  import opened Wrappers
  import opened Schema
  import opened OrderedMaps
  import Sequences
  import TrackOrder

  /** The `currentIds` record. */
  datatype Counters = Counters(user: int, playlist: int, track: int)

  datatype Store = Store(
    users: OrderedMap<User>,
    playlists: OrderedMap<Playlist>,
    tracks: OrderedMap<PlaylistTrack>,
    currentIds: Counters)

  /** A freshly created record and the store that now holds it. */
  datatype Created<T> = Created(record: T, store: Store)

  function UserId(u: User): int { u.id }
  function PlaylistId(p: Playlist): int { p.id }
  function TrackId(t: PlaylistTrack): int { t.id }

  /** Selects the playlists owned by user `uid`. */
  function OwnedBy(uid: int): Playlist -> bool { (p: Playlist) => p.userId == uid }

  /** Selects the tracks whose `playlistId` is `pid`. */
  function OnPlaylist(pid: int): PlaylistTrack -> bool { (t: PlaylistTrack) => t.playlistId == pid }

  /** Selects the tracks whose `playlistId` is not `pid`. */
  function OffPlaylist(pid: int): PlaylistTrack -> bool { (t: PlaylistTrack) => t.playlistId != pid }

  // ---------------------------------------------------------------------
  // The invariant every reachable store keeps.
  // ---------------------------------------------------------------------

  /**
    Every entry is keyed by its record's own id, every id was issued by the
    counter (so lies in [1, next)), and iteration order is ascending id order.
   */
  ghost predicate TableValid<V>(m: OrderedMap<V>, id: V -> int, next: int) {
    && 1 <= next
    && (forall i :: 0 <= i < |m| ==> m[i].key == id(m[i].value) && 1 <= m[i].key < next)
    && (forall i, j :: 0 <= i < j < |m| ==> m[i].key < m[j].key)
  }

  ghost predicate Valid(s: Store) {
    && TableValid(s.users, UserId, s.currentIds.user)
    && TableValid(s.playlists, PlaylistId, s.currentIds.playlist)
    && TableValid(s.tracks, TrackId, s.currentIds.track)
  }

  /** `new MemStorage()`: three empty maps, every counter at 1. */
  function NewStore(): (s: Store)
    ensures Valid(s)
    ensures Values(s.users) == [] && Values(s.playlists) == [] && Values(s.tracks) == []
    ensures s.currentIds == Counters(1, 1, 1)
  {
    Store([], [], [], Counters(1, 1, 1))
  }

  // ---------------------------------------------------------------------
  // Users.
  // ---------------------------------------------------------------------

  /** `getUser(id)`. */
  function GetUser(s: Store, id: int): (r: Option<User>)
    ensures r.Some? ==> Entry(id, r.value) in s.users
    ensures r.None? <==> forall i :: 0 <= i < |s.users| ==> s.users[i].key != id
  {
    Get(s.users, id)
  }

  /** `Array.prototype.find`: the first user in `us` whose `firebaseId` is `f`. */
  function FindByFirebaseId(us: seq<User>, f: string): (r: Option<User>)
    ensures r.None? <==> forall i :: 0 <= i < |us| ==> us[i].firebaseId != f
    ensures r.Some? ==> exists i :: 0 <= i < |us| && us[i] == r.value && r.value.firebaseId == f
                                   && forall j :: 0 <= j < i ==> us[j].firebaseId != f
  {
    if |us| == 0 then None
    else if us[0].firebaseId == f then Some(us[0])
    else
      var r := FindByFirebaseId(us[1..], f);
      assert r.Some? ==> exists i :: 1 <= i < |us| && us[i] == r.value && r.value.firebaseId == f
                                   && forall j :: 0 <= j < i ==> us[j].firebaseId != f by {
        if r.Some? {
          var i :| 0 <= i < |us[1..]| && us[1..][i] == r.value && r.value.firebaseId == f
                   && forall j :: 0 <= j < i ==> us[1..][j].firebaseId != f;
          assert us[i + 1] == r.value;
          assert forall j :: 1 <= j < i + 1 ==> us[j] == us[1..][j - 1];
        }
      }
      r
  }

  /** `getUserByFirebaseId(f)`: the first user in insertion order with that identity-provider uid. */
  function GetUserByFirebaseId(s: Store, f: string): (r: Option<User>)
    ensures r.None? <==> forall i :: 0 <= i < |s.users| ==> s.users[i].value.firebaseId != f
    ensures r.Some? ==> r.value.firebaseId == f
    ensures r.Some? ==> exists i :: 0 <= i < |s.users| && s.users[i].value == r.value
                                   && forall j :: 0 <= j < i ==> s.users[j].value.firebaseId != f
  {
    FindByFirebaseId(Values(s.users), f)
  }

  /** `createUser(user)`: the user gets the current user counter as id, and the counter moves on. */
  function CreateUser(s: Store, ins: InsertUser): (r: Created<User>)
    ensures r.record == User(s.currentIds.user, ins.firebaseId, ins.displayName, ins.email)
    ensures r.store.currentIds == s.currentIds.(user := s.currentIds.user + 1)
    ensures r.store.playlists == s.playlists && r.store.tracks == s.tracks
    ensures r.store.users == Set(s.users, r.record.id, r.record)
  {
    var id := s.currentIds.user;
    var u := User(id, ins.firebaseId, ins.displayName, ins.email);
    Created(u, s.(users := Set(s.users, id, u), currentIds := s.currentIds.(user := id + 1)))
  }

  // ---------------------------------------------------------------------
  // Playlists.
  // ---------------------------------------------------------------------

  /** `getPlaylists(userId)`: the stored playlists owned by `uid`, in insertion order. */
  function GetPlaylists(s: Store, uid: int): (r: seq<Playlist>)
    ensures forall p :: p in r <==> p in Values(s.playlists) && p.userId == uid
  {
    Sequences.Filter(Values(s.playlists), OwnedBy(uid))
  }

  /** `getPlaylist(id)`. */
  function GetPlaylist(s: Store, id: int): (r: Option<Playlist>)
    ensures r.Some? ==> Entry(id, r.value) in s.playlists
    ensures r.None? <==> forall i :: 0 <= i < |s.playlists| ==> s.playlists[i].key != id
  {
    Get(s.playlists, id)
  }

  /** `createPlaylist(playlist)`; `now` is the clock reading that becomes `createdAt`. */
  function CreatePlaylist(s: Store, ins: InsertPlaylist, now: Timestamp): (r: Created<Playlist>)
    ensures r.record == Playlist(s.currentIds.playlist, ins.userId, ins.name, now)
    ensures r.store.currentIds == s.currentIds.(playlist := s.currentIds.playlist + 1)
    ensures r.store.users == s.users && r.store.tracks == s.tracks
    ensures r.store.playlists == Set(s.playlists, r.record.id, r.record)
  {
    var id := s.currentIds.playlist;
    var p := Playlist(id, ins.userId, ins.name, now);
    Created(p, s.(playlists := Set(s.playlists, id, p), currentIds := s.currentIds.(playlist := id + 1)))
  }

  /** The ids `deletePlaylist` collects: those of the stored tracks whose `playlistId` is `id`. */
  function TrackIdsOn(s: Store, id: int): (r: seq<int>)
    ensures forall j :: 0 <= j < |r| ==>
              exists i :: 0 <= i < |s.tracks| && s.tracks[i].value.playlistId == id && s.tracks[i].value.id == r[j]
    ensures forall i :: 0 <= i < |s.tracks| && s.tracks[i].value.playlistId == id ==> s.tracks[i].value.id in r
  {
    Sequences.Map(Sequences.Filter(Values(s.tracks), OnPlaylist(id)), TrackId)
  }

  /**
    `deletePlaylist(id)`: deletes the playlist, then collects the ids of the
    tracks whose `playlistId` is `id` and deletes them one by one. An absent
    playlist is not an error, and its orphan tracks are still removed.
   */
  function DeletePlaylist(s: Store, id: int): (r: Store)
    ensures r.users == s.users && r.currentIds == s.currentIds
    ensures GetPlaylist(r, id).None?
    ensures forall j :: j != id ==> GetPlaylist(r, j) == GetPlaylist(s, j)
  {
    GetDelete(s.playlists, id, id);
    forall j ensures Get(Delete(s.playlists, id), j) == if j == id then None else Get(s.playlists, j) {
      GetDelete(s.playlists, id, j);
    }
    s.(playlists := Delete(s.playlists, id), tracks := DeleteAll(s.tracks, TrackIdsOn(s, id)))
  }

  // ---------------------------------------------------------------------
  // Playlist tracks.
  // ---------------------------------------------------------------------

  /** `getPlaylistTracks(playlistId)`: the playlist's tracks, stably sorted by ascending position. */
  function GetPlaylistTracks(s: Store, pid: int): (r: seq<PlaylistTrack>)
    ensures forall t :: t in r <==> t in Values(s.tracks) && t.playlistId == pid
    ensures multiset(r) == multiset(Sequences.Filter(Values(s.tracks), OnPlaylist(pid)))
    ensures TrackOrder.PositionSorted(r)
  {
    var selected := Sequences.Filter(Values(s.tracks), OnPlaylist(pid));
    assert forall t :: t in TrackOrder.SortByPosition(selected) <==> t in multiset(selected);
    TrackOrder.SortByPosition(selected)
  }

  /** `addTrackToPlaylist(track)`: stored as given; `playlistId` is not checked against the playlists. */
  function AddTrackToPlaylist(s: Store, ins: InsertPlaylistTrack): (r: Created<PlaylistTrack>)
    ensures r.record == PlaylistTrack(s.currentIds.track, ins.playlistId, ins.videoId, ins.title,
                                      ins.thumbnail, ins.position)
    ensures r.store.currentIds == s.currentIds.(track := s.currentIds.track + 1)
    ensures r.store.users == s.users && r.store.playlists == s.playlists
    ensures r.store.tracks == Set(s.tracks, r.record.id, r.record)
  {
    var id := s.currentIds.track;
    var t := PlaylistTrack(id, ins.playlistId, ins.videoId, ins.title, ins.thumbnail, ins.position);
    Created(t, s.(tracks := Set(s.tracks, id, t), currentIds := s.currentIds.(track := id + 1)))
  }

  /** `removeTrackFromPlaylist(id)`: deletes key `id` only; an absent key is a no-op. */
  function RemoveTrackFromPlaylist(s: Store, id: int): (r: Store)
    ensures r.users == s.users && r.playlists == s.playlists && r.currentIds == s.currentIds
    ensures Get(r.tracks, id).None?
    ensures forall j :: j != id ==> Get(r.tracks, j) == Get(s.tracks, j)
    ensures !Has(s.tracks, id) ==> r == s
  {
    forall j ensures Get(Delete(s.tracks, id), j) == if j == id then None else Get(s.tracks, j) {
      GetDelete(s.tracks, id, j);
    }
    assert !Has(s.tracks, id) ==> Delete(s.tracks, id) == s.tracks by {
      if !Has(s.tracks, id) { DeleteAbsent(s.tracks, id); }
    }
    s.(tracks := Delete(s.tracks, id))
  }

  /**
    `updateTrackPosition(id, position)`: an existing track gets the new
    position and keeps every other field and its place in iteration order;
    a missing id is a no-op.
   */
  function UpdateTrackPosition(s: Store, id: int, position: int): (r: Store)
    ensures r.users == s.users && r.playlists == s.playlists && r.currentIds == s.currentIds
    ensures Get(s.tracks, id).None? ==> r == s
    ensures Get(s.tracks, id).Some? ==> Get(r.tracks, id) == Some(Get(s.tracks, id).value.(position := position))
    ensures forall j :: j != id ==> Get(r.tracks, j) == Get(s.tracks, j)
    ensures Keys(r.tracks) == Keys(s.tracks)
  {
    match Get(s.tracks, id)
    case None => s
    case Some(t) =>
      var tracks' := Set(s.tracks, id, t.(position := position));
      forall j ensures Get(tracks', j) == if j == id then Some(t.(position := position)) else Get(s.tracks, j) {
        GetSet(s.tracks, id, t.(position := position), j);
      }
      assert tracks' == Replace(s.tracks, id, t.(position := position));
      s.(tracks := tracks')
  }
}

=== FILE: storage_facts.dfy ===
/**
  Properties of `MemStorage`: the store invariant every operation keeps,
  freshness of issued ids, the cascade of `deletePlaylist`, the order of
  listed records, and the reference constraints the schema declares.
 */
module StorageFacts {
  import opened Wrappers
  import opened Schema
  import opened OrderedMaps
  import Sequences
  import TrackOrder
  import opened Storage

  // ---------------------------------------------------------------------
  // Table-level facts.
  // ---------------------------------------------------------------------

  /** Appending a record under the counter's value keeps the table valid for the next counter value. */
  lemma AppendKeepsTableValid<V>(m: OrderedMap<V>, id: V -> int, next: int, v: V)
    requires TableValid(m, id, next)
    requires id(v) == next
    ensures !Has(m, next)
    ensures Set(m, next, v) == m + [Entry(next, v)]
    ensures TableValid(m + [Entry(next, v)], id, next + 1)
  {
    var m' := m + [Entry(next, v)];
    assert forall i :: 0 <= i < |m| ==> m'[i] == m[i];
    assert !Has(m, next) by {
      forall i | 0 <= i < |m| ensures m[i].key != next {
        assert m[i].key < next;
      }
    }
  }

  lemma {:induction false} RemoveKeysKeepsTableValid<V>(m: OrderedMap<V>, ks: set<int>, id: V -> int, next: int)
    requires TableValid(m, id, next)
    ensures TableValid(RemoveKeys(m, ks), id, next)
  {
    if |m| > 0 {
      RemoveKeysKeepsTableValid(m[1..], ks, id, next);
      RemoveKeysMembers(m[1..], ks);
      var rest := RemoveKeys(m[1..], ks);
      if m[0].key !in ks {
        forall j | 0 <= j < |rest| ensures m[0].key < rest[j].key {
          assert rest[j] in rest;
          assert rest[j] in m[1..];
          var k :| 0 <= k < |m[1..]| && m[1..][k] == rest[j];
          assert m[k + 1] == rest[j];
        }
        assert RemoveKeys(m, ks) == [m[0]] + rest;
      }
    }
  }

  lemma DeleteKeepsTableValid<V>(m: OrderedMap<V>, k: int, id: V -> int, next: int)
    requires TableValid(m, id, next)
    ensures TableValid(Delete(m, k), id, next)
  {
    DeleteIsRemoveKeys(m, k);
    RemoveKeysKeepsTableValid(m, {k}, id, next);
  }

  lemma ReplaceKeepsTableValid<V>(m: OrderedMap<V>, k: int, v: V, id: V -> int, next: int)
    requires TableValid(m, id, next)
    requires id(v) == k
    ensures TableValid(Replace(m, k, v), id, next)
  {
  }

  // ---------------------------------------------------------------------
  // Every operation keeps the store invariant.
  // ---------------------------------------------------------------------

  /** `createUser` issues an id no stored user has, and appends the user at the end of iteration order. */
  lemma CreateUserFresh(s: Store, ins: InsertUser)
    requires Valid(s)
    ensures var r := CreateUser(s, ins);
            && (forall i :: 0 <= i < |s.users| ==> s.users[i].key != r.record.id)
            && Values(r.store.users) == Values(s.users) + [r.record]
            && Valid(r.store)
  {
    var r := CreateUser(s, ins);
    AppendKeepsTableValid(s.users, UserId, s.currentIds.user, r.record);
  }

  /** `createPlaylist` issues an id no stored playlist has, and appends the playlist. */
  lemma CreatePlaylistFresh(s: Store, ins: InsertPlaylist, now: Timestamp)
    requires Valid(s)
    ensures var r := CreatePlaylist(s, ins, now);
            && (forall i :: 0 <= i < |s.playlists| ==> s.playlists[i].key != r.record.id)
            && Values(r.store.playlists) == Values(s.playlists) + [r.record]
            && Valid(r.store)
  {
    var r := CreatePlaylist(s, ins, now);
    AppendKeepsTableValid(s.playlists, PlaylistId, s.currentIds.playlist, r.record);
  }

  /** `addTrackToPlaylist` issues an id no stored track has, and appends the track. */
  lemma AddTrackFresh(s: Store, ins: InsertPlaylistTrack)
    requires Valid(s)
    ensures var r := AddTrackToPlaylist(s, ins);
            && (forall i :: 0 <= i < |s.tracks| ==> s.tracks[i].key != r.record.id)
            && Values(r.store.tracks) == Values(s.tracks) + [r.record]
            && Valid(r.store)
  {
    var r := AddTrackToPlaylist(s, ins);
    AppendKeepsTableValid(s.tracks, TrackId, s.currentIds.track, r.record);
  }

  lemma RemoveTrackKeepsValid(s: Store, id: int)
    requires Valid(s)
    ensures Valid(RemoveTrackFromPlaylist(s, id))
  {
    DeleteKeepsTableValid(s.tracks, id, TrackId, s.currentIds.track);
  }

  lemma UpdateTrackPositionKeepsValid(s: Store, id: int, position: int)
    requires Valid(s)
    ensures Valid(UpdateTrackPosition(s, id, position))
  {
    if Get(s.tracks, id).Some? {
      var t := Get(s.tracks, id).value;
      var i :| 0 <= i < |s.tracks| && s.tracks[i] == Entry(id, t);
      ReplaceKeepsTableValid(s.tracks, id, t.(position := position), TrackId, s.currentIds.track);
    }
  }

  /**
    The tracks `deletePlaylist` removes are exactly those whose `playlistId`
    is `id`: as a set of keys, `ks` selects precisely those entries.
   */
  lemma {:induction false} RemoveSelectedTracks(m: OrderedMap<PlaylistTrack>, ks: set<int>, id: int)
    requires forall i :: 0 <= i < |m| ==> (m[i].key in ks <==> m[i].value.playlistId == id)
    ensures Values(RemoveKeys(m, ks)) == Sequences.Filter(Values(m), OffPlaylist(id))
  {
    if |m| > 0 {
      RemoveSelectedTracks(m[1..], ks, id);
      assert Values(m)[1..] == Values(m[1..]);
      if m[0].key !in ks {
        assert RemoveKeys(m, ks) == [m[0]] + RemoveKeys(m[1..], ks);
      }
    }
  }

  lemma TrackOnPlaylistIsCollected(s: Store, id: int, i: int)
    requires Valid(s) && 0 <= i < |s.tracks| && s.tracks[i].value.playlistId == id
    ensures s.tracks[i].key in TrackIdsOn(s, id)
  {
    var selected := Sequences.Filter(Values(s.tracks), OnPlaylist(id));
    var t := s.tracks[i].value;
    assert Values(s.tracks)[i] == t;
    var k :| 0 <= k < |selected| && selected[k] == t;
    assert TrackIdsOn(s, id)[k] == t.id;
  }

  lemma CollectedTrackIsOnPlaylist(s: Store, id: int, i: int)
    requires Valid(s) && 0 <= i < |s.tracks| && s.tracks[i].key in TrackIdsOn(s, id)
    ensures s.tracks[i].value.playlistId == id
  {
    var selected := Sequences.Filter(Values(s.tracks), OnPlaylist(id));
    var trackIds := TrackIdsOn(s, id);
    var k :| 0 <= k < |trackIds| && trackIds[k] == s.tracks[i].key;
    assert selected[k] in Values(s.tracks);
    var j :| 0 <= j < |s.tracks| && Values(s.tracks)[j] == selected[k];
    assert s.tracks[j].key == s.tracks[i].key;
    assert i == j;
  }

  /** In a valid store, a track's key is among the collected ids exactly when the track is on playlist `id`. */
  lemma TrackIdsOnSelects(s: Store, id: int)
    requires Valid(s)
    ensures forall i :: 0 <= i < |s.tracks| ==>
              (s.tracks[i].key in TrackIdsOn(s, id) <==> s.tracks[i].value.playlistId == id)
  {
    forall i | 0 <= i < |s.tracks|
      ensures s.tracks[i].key in TrackIdsOn(s, id) <==> s.tracks[i].value.playlistId == id
    {
      if s.tracks[i].value.playlistId == id {
        TrackOnPlaylistIsCollected(s, id, i);
      }
      if s.tracks[i].key in TrackIdsOn(s, id) {
        CollectedTrackIsOnPlaylist(s, id, i);
      }
    }
  }

  /**
    Cascade delete: after `deletePlaylist(id)` the remaining tracks are the
    former ones minus those on playlist `id`, in their former order.
   */
  lemma DeletePlaylistTracks(s: Store, id: int)
    requires Valid(s)
    ensures Values(DeletePlaylist(s, id).tracks) == Sequences.Filter(Values(s.tracks), OffPlaylist(id))
  {
    var ks := set k | k in TrackIdsOn(s, id);
    DeleteAllIsRemoveKeys(s.tracks, TrackIdsOn(s, id));
    TrackIdsOnSelects(s, id);
    RemoveSelectedTracks(s.tracks, ks, id);
  }

  lemma DeletePlaylistKeepsValid(s: Store, id: int)
    requires Valid(s)
    ensures Valid(DeletePlaylist(s, id))
  {
    DeleteKeepsTableValid(s.playlists, id, PlaylistId, s.currentIds.playlist);
    DeleteAllIsRemoveKeys(s.tracks, TrackIdsOn(s, id));
    var ks := set k | k in TrackIdsOn(s, id);
    RemoveKeysKeepsTableValid(s.tracks, ks, TrackId, s.currentIds.track);
  }

  /**
    After `deletePlaylist(id)`, playlist `id` lists no tracks, and every other
    playlist lists exactly the tracks it listed before.
   */
  lemma DeletePlaylistCascade(s: Store, id: int)
    requires Valid(s)
    ensures GetPlaylistTracks(DeletePlaylist(s, id), id) == []
    ensures forall p :: p != id ==> GetPlaylistTracks(DeletePlaylist(s, id), p) == GetPlaylistTracks(s, p)
  {
    var r := DeletePlaylist(s, id);
    DeletePlaylistTracks(s, id);
    Sequences.FilterExcludes(Values(s.tracks), OffPlaylist(id), OnPlaylist(id));
    forall p | p != id ensures GetPlaylistTracks(r, p) == GetPlaylistTracks(s, p) {
      Sequences.FilterAbsorbs(Values(s.tracks), OffPlaylist(id), OnPlaylist(p));
    }
  }

  lemma ValuesAscending<V>(m: OrderedMap<V>, id: V -> int, next: int)
    requires TableValid(m, id, next)
    ensures forall i, j :: 0 <= i < j < |Values(m)| ==> id(Values(m)[i]) < id(Values(m)[j])
  {
  }

  /** In a valid store, `getPlaylists` lists the user's playlists in ascending id (insertion) order. */
  lemma GetPlaylistsInInsertionOrder(s: Store, uid: int)
    requires Valid(s)
    ensures forall i, j :: 0 <= i < j < |GetPlaylists(s, uid)| ==> GetPlaylists(s, uid)[i].id < GetPlaylists(s, uid)[j].id
  {
    ValuesAscending(s.playlists, PlaylistId, s.currentIds.playlist);
    Sequences.FilterKeepsAscending(Values(s.playlists), OwnedBy(uid), PlaylistId);
  }

  /**
    In a valid store, `getPlaylistTracks` orders by position and, the sort
    being stable over id-ordered input, breaks ties by ascending id.
   */
  lemma GetPlaylistTracksOrder(s: Store, pid: int)
    requires Valid(s)
    ensures TrackOrder.PositionThenIdSorted(GetPlaylistTracks(s, pid))
  {
    ValuesAscending(s.tracks, TrackId, s.currentIds.track);
    Sequences.FilterKeepsAscending(Values(s.tracks), OnPlaylist(pid), TrackId);
    TrackOrder.SortStable(Sequences.Filter(Values(s.tracks), OnPlaylist(pid)));
  }

  // ---------------------------------------------------------------------
  // The declared foreign keys.
  // ---------------------------------------------------------------------

  /** `playlist_tracks.playlist_id` references a live playlist. */
  ghost predicate TracksReferenceLivePlaylists(s: Store) {
    forall i :: 0 <= i < |s.tracks| ==> Has(s.playlists, s.tracks[i].value.playlistId)
  }

  /** `playlists.user_id` references a live user. */
  ghost predicate PlaylistsReferenceLiveUsers(s: Store) {
    forall i :: 0 <= i < |s.playlists| ==> Has(s.users, s.playlists[i].value.userId)
  }

  /** The cascade keeps every remaining track pointing at a live playlist. */
  lemma DeletePlaylistKeepsTrackReferences(s: Store, id: int)
    requires Valid(s) && TracksReferenceLivePlaylists(s)
    ensures TracksReferenceLivePlaylists(DeletePlaylist(s, id))
  {
    var r := DeletePlaylist(s, id);
    DeletePlaylistTracks(s, id);
    forall i | 0 <= i < |r.tracks| ensures Has(r.playlists, r.tracks[i].value.playlistId) {
      var t := r.tracks[i].value;
      assert Values(r.tracks)[i] == t;
      assert t in Values(s.tracks) && t.playlistId != id;
      var k :| 0 <= k < |s.tracks| && Values(s.tracks)[k] == t;
      assert Has(s.playlists, t.playlistId);
      assert GetPlaylist(r, t.playlistId) == GetPlaylist(s, t.playlistId);
    }
  }

  /** `addTrackToPlaylist` does not check its `playlistId`: on an empty store it creates an orphan track. */
  lemma AddTrackCanOrphan()
    ensures var s := NewStore();
            var r := AddTrackToPlaylist(s, InsertPlaylistTrack(5, "abc", "T", "u", 0));
            && TracksReferenceLivePlaylists(s)
            && r.record.playlistId == 5
            && GetPlaylistTracks(r.store, 5) == [r.record]
            && !TracksReferenceLivePlaylists(r.store)
  {
    var s := NewStore();
    var r := AddTrackToPlaylist(s, InsertPlaylistTrack(5, "abc", "T", "u", 0));
    AddTrackFresh(s, InsertPlaylistTrack(5, "abc", "T", "u", 0));
    assert r.store.tracks[0].value == r.record;
    assert !Has(r.store.playlists, 5);
    assert GetPlaylistTracks(r.store, 5) == [r.record] by {
      assert Values(r.store.tracks) == [r.record];
      assert Sequences.Filter(Values(r.store.tracks), OnPlaylist(5)) == [r.record];
    }
  }

  /** A playlist created for a live user keeps every playlist pointing at a live user. */
  lemma CreatePlaylistKeepsUserReferences(s: Store, ins: InsertPlaylist, now: Timestamp)
    requires Valid(s) && PlaylistsReferenceLiveUsers(s)
    requires Has(s.users, ins.userId)
    ensures PlaylistsReferenceLiveUsers(CreatePlaylist(s, ins, now).store)
  {
    CreatePlaylistFresh(s, ins, now);
    var r := CreatePlaylist(s, ins, now);
    assert r.store.playlists == s.playlists + [Entry(r.record.id, r.record)];
  }

  // ---------------------------------------------------------------------
  // Ids are never reused.
  // ---------------------------------------------------------------------

  /** One call on the store that changes it. */
  datatype Op =
    | CreateUserOp(user: InsertUser)
    | CreatePlaylistOp(playlist: InsertPlaylist, now: Timestamp)
    | DeletePlaylistOp(id: int)
    | AddTrackOp(track: InsertPlaylistTrack)
    | RemoveTrackOp(id: int)
    | UpdateTrackPositionOp(id: int, position: int)

  function Apply(s: Store, op: Op): Store {
    match op
    case CreateUserOp(u) => CreateUser(s, u).store
    case CreatePlaylistOp(p, now) => CreatePlaylist(s, p, now).store
    case DeletePlaylistOp(id) => DeletePlaylist(s, id)
    case AddTrackOp(t) => AddTrackToPlaylist(s, t).store
    case RemoveTrackOp(id) => RemoveTrackFromPlaylist(s, id)
    case UpdateTrackPositionOp(id, position) => UpdateTrackPosition(s, id, position)
  }

  /** The store after the calls `ops`, in order. */
  function Run(s: Store, ops: seq<Op>): Store
    decreases |ops|
  {
    if |ops| == 0 then s else Run(Apply(s, ops[0]), ops[1..])
  }

  lemma ApplyKeepsValid(s: Store, op: Op)
    requires Valid(s)
    ensures Valid(Apply(s, op))
    ensures Apply(s, op).currentIds.user >= s.currentIds.user
    ensures Apply(s, op).currentIds.playlist >= s.currentIds.playlist
    ensures Apply(s, op).currentIds.track >= s.currentIds.track
  {
    match op
    case CreateUserOp(u) => CreateUserFresh(s, u);
    case CreatePlaylistOp(p, now) => CreatePlaylistFresh(s, p, now);
    case DeletePlaylistOp(id) => DeletePlaylistKeepsValid(s, id);
    case AddTrackOp(t) => AddTrackFresh(s, t);
    case RemoveTrackOp(id) => RemoveTrackKeepsValid(s, id);
    case UpdateTrackPositionOp(id, position) => UpdateTrackPositionKeepsValid(s, id, position);
  }

  /** Every sequence of calls from a valid store (in particular from `new MemStorage()`) ends in a valid store. */
  lemma {:induction false} RunKeepsValid(s: Store, ops: seq<Op>)
    requires Valid(s)
    ensures Valid(Run(s, ops))
    ensures Run(s, ops).currentIds.user >= s.currentIds.user
    ensures Run(s, ops).currentIds.playlist >= s.currentIds.playlist
    ensures Run(s, ops).currentIds.track >= s.currentIds.track
    decreases |ops|
  {
    if |ops| > 0 {
      ApplyKeepsValid(s, ops[0]);
      RunKeepsValid(Apply(s, ops[0]), ops[1..]);
    }
  }

  /**
    Whatever happens in between, a later create issues an id that no record
    of `s` ever had: every id of `s`, live or since deleted, lies below `s`'s
    counter, and the issued id does not. It is also free in the later store.
   */
  lemma IdsNeverReused(s: Store, ops: seq<Op>, u: InsertUser, p: InsertPlaylist, now: Timestamp, t: InsertPlaylistTrack)
    requires Valid(s)
    ensures var later := Run(s, ops);
            && (forall i :: 0 <= i < |s.users| ==> s.users[i].key < CreateUser(later, u).record.id)
            && (forall i :: 0 <= i < |s.playlists| ==> s.playlists[i].key < CreatePlaylist(later, p, now).record.id)
            && (forall i :: 0 <= i < |s.tracks| ==> s.tracks[i].key < AddTrackToPlaylist(later, t).record.id)
            && (forall i :: 0 <= i < |later.users| ==> later.users[i].key != CreateUser(later, u).record.id)
            && (forall i :: 0 <= i < |later.playlists| ==> later.playlists[i].key != CreatePlaylist(later, p, now).record.id)
            && (forall i :: 0 <= i < |later.tracks| ==> later.tracks[i].key != AddTrackToPlaylist(later, t).record.id)
  {
    var later := Run(s, ops);
    RunKeepsValid(s, ops);
    CreateUserFresh(later, u);
    CreatePlaylistFresh(later, p, now);
    AddTrackFresh(later, t);
  }
}

=== FILE: track_order.dfy ===
/**
  The ordering `getPlaylistTracks` puts on a playlist's tracks:
  `sort((a, b) => a.position - b.position)`. JavaScript's `Array.prototype.sort`
  is stable, so tracks with equal positions keep their relative order.
  Stable insertion sort computes exactly that order.
 */
module TrackOrder {
  import opened Schema

  predicate PositionSorted(s: seq<PlaylistTrack>) {
    forall i, j :: 0 <= i < j < |s| ==> s[i].position <= s[j].position
  }

  predicate IdAscending(s: seq<PlaylistTrack>) {
    forall i, j :: 0 <= i < j < |s| ==> s[i].id < s[j].id
  }

  /** Ordered by position, ties in ascending id. */
  predicate PositionThenIdSorted(s: seq<PlaylistTrack>) {
    forall i, j :: 0 <= i < j < |s| ==>
      s[i].position < s[j].position || (s[i].position == s[j].position && s[i].id < s[j].id)
  }

  /** Inserts `x` before the first track whose position is not below its own. */
  function Insert(x: PlaylistTrack, t: seq<PlaylistTrack>): (r: seq<PlaylistTrack>)
    ensures |r| == |t| + 1
  {
    if |t| == 0 || x.position <= t[0].position then [x] + t
    else [t[0]] + Insert(x, t[1..])
  }

  /**
    The stable sort of `s` by ascending position: a permutation of `s` in
    ascending position order.
   */
  function SortByPosition(s: seq<PlaylistTrack>): (r: seq<PlaylistTrack>)
    ensures multiset(r) == multiset(s)
    ensures PositionSorted(r)
  {
    if |s| == 0 then []
    else
      var t := SortByPosition(s[1..]);
      InsertPermutes(s[0], t);
      InsertSorted(s[0], t);
      assert s == [s[0]] + s[1..];
      Insert(s[0], t)
  }

  lemma {:induction false} InsertPermutes(x: PlaylistTrack, t: seq<PlaylistTrack>)
    ensures multiset(Insert(x, t)) == multiset(t) + multiset{x}
  {
    if |t| > 0 && x.position > t[0].position {
      InsertPermutes(x, t[1..]);
      assert t == [t[0]] + t[1..];
    }
  }

  lemma {:induction false} InsertSorted(x: PlaylistTrack, t: seq<PlaylistTrack>)
    requires PositionSorted(t)
    ensures PositionSorted(Insert(x, t))
  {
    if |t| > 0 && x.position > t[0].position {
      InsertSorted(x, t[1..]);
      InsertPermutes(x, t[1..]);
      var r := Insert(x, t);
      forall j | 1 <= j < |r| ensures t[0].position <= r[j].position {
        assert r[j] in multiset(Insert(x, t[1..]));
        assert r[j] == x || r[j] in t[1..];
      }
    }
  }

  lemma {:induction false} InsertSortedById(x: PlaylistTrack, t: seq<PlaylistTrack>)
    requires PositionThenIdSorted(t)
    requires forall i :: 0 <= i < |t| ==> x.id < t[i].id
    ensures PositionThenIdSorted(Insert(x, t))
  {
    if |t| > 0 && x.position > t[0].position {
      InsertSortedById(x, t[1..]);
      InsertPermutes(x, t[1..]);
      var r := Insert(x, t);
      forall j | 1 <= j < |r|
        ensures t[0].position < r[j].position || (t[0].position == r[j].position && t[0].id < r[j].id)
      {
        assert r[j] in multiset(Insert(x, t[1..]));
        assert r[j] == x || r[j] in t[1..];
      }
    }
  }

  /**
    Stability: when the input is in ascending id order (as the store's
    iteration order is), tracks with equal positions come out in ascending id order.
   */
  lemma {:induction false} SortStable(s: seq<PlaylistTrack>)
    requires IdAscending(s)
    ensures PositionThenIdSorted(SortByPosition(s))
  {
    if |s| > 0 {
      var t := SortByPosition(s[1..]);
      SortStable(s[1..]);
      forall i | 0 <= i < |t| ensures s[0].id < t[i].id {
        assert t[i] in multiset(s[1..]);
        var k :| 0 <= k < |s[1..]| && s[1..][k] == t[i];
        assert s[k + 1] == t[i];
      }
      InsertSortedById(s[0], t);
    }
  }
}

=== FILE: wrappers.dfy ===
/** Optional values: the model of a TypeScript `T | undefined` result. */
module Wrappers {

  datatype Option<+T> = None | Some(value: T)
}
